=== FILE: README.md ===
# Clinic record store

A Dafny model of the clinic management system's in-memory record store
(`MemStorage`), the record shapes it holds, and the HTTP handlers that gate
its operations by role.

What the model covers:

- **The store.** Six insertion-ordered JavaScript maps hold users, doctor
  records, appointments, prescriptions, lab tests and visit tokens. One
  counter hands out the ids for every kind of record.
- **Store operations.** Every read, create and update, plus today's token
  queue, token assignment and the per-role dashboard counters. Each one is
  a pure function of the store: a write returns its result together with
  the store it leaves behind.
- **The handlers.** Their role checks, and the exact patch each handler
  passes to the store.
- **A server run.** A sequence of write requests handled in order.

## Modules

- `JsValues`: property slots that may be undefined or null, and the shallow spread `{...a, ...b}`.
- `JsArrays`: `filter` and `find`.
- `JsMaps`: `Map` with its insertion order.
- `Schema`: the record types, the insert payloads, the partial updates and their merge.
- `Access`: the role/collection visibility matrix as a table.
- `Storage`: the store and its operations.
- `StoreInvariants`: the invariant every write keeps.
- `Dashboard`: how the counters react to writes.
- `Routes`: the HTTP handlers.
- `TokenQueue`: token numbering across several calls.
- `SampleData`: the constructor's seeding run.
- `Server`: request runs and the properties that hold across them.
- `Scenarios`: concrete request sequences from the seeded store.

Behaviours of the code worth noting:

- **Lab assistants and prescriptions.** Lab assistants see every appointment
  and lab test but no prescription: `getPrescriptionsByUser` has no case for
  their role, so they fall into `default`.
- **Doctor ids.** The prescription and lab-test POST handlers store the
  caller's *user* id as `doctorId`. The doctor-role listings compare
  `doctorId` against the caller's *doctor-record* id. The two come from the
  same counter but never coincide, so a doctor never sees the prescriptions
  or lab tests they created (`Server.DoctorCannotSeeOwnPrescription`).
- **Clearing by undefined.** The appointment PATCH handler always passes both
  `status` and `tokenNumber`. The lab-test PATCH handler always passes
  `completedAt`. The spread copies keys that hold `undefined`, so a body
  that leaves a field out clears it.
- **Lab-test status on creation.** The lab-test POST handler adds
  `status: 'requested'`, but the insert schema does not pick `status`, so
  the status comes from `createLabTest` alone.

## Model

| member | source | states |
|---|---|---|
| `JsArrays.Filter` | server/storage.ts:249-252 | `filter` keeps exactly the elements that pass, and never yields more than it was given |
| `JsArrays.Find` | server/storage.ts:116 | `find` returns an element that passes with none passing before it, and returns undefined exactly when no element passes |
| `JsMaps.Set` | server/storage.ts:107 | `Map.set` makes the key hold the value and leaves every other key alone; the size grows exactly when the key is new |
| `JsMaps.Values` | server/storage.ts:131 | `Array.from(map.values())` lists one value per key, in key insertion order |
| `JsMaps.ValuesSetFresh` | server/storage.ts:156 | storing under a new key appends its value to the end of `values()` |
| `JsMaps.ValuesSetExisting` | server/storage.ts:166-167 | storing under a present key replaces its value in place, so an update keeps the record's position |
| `Schema.ParseRole` | shared/schema.ts:10 | any role text other than the four role names reads as the catch-all role |
| `Schema.ParseRoleName` | shared/schema.ts:10 | the text stored for each of the four roles reads back as that role |
| `Schema.ParseAppointmentStatus` | shared/schema.ts:32 | only the four status names read as a named appointment status |
| `Schema.ParseAppointmentStatusName` | shared/schema.ts:32 | each of the four named appointment statuses reads back from its stored text |
| `Schema.ParseLabStatus` | shared/schema.ts:56 | only the three status names read as a named lab-test status |
| `Schema.ParseLabStatusName` | shared/schema.ts:56 | each of the three named lab-test statuses reads back from its stored text |
| `Schema.MergeAppointmentFrame` | server/storage.ts:166 | `{...appointment, ...updates}` takes every key the patch has, undefined values included, keeps every key it lacks, and never touches id, parties, date, reason or creation time |
| `Schema.MergeLabTestFrame` | server/storage.ts:238 | the same frame property for lab-test updates |
| `Schema.MergeAppointmentIdempotent` | server/storage.ts:166 | an empty patch changes nothing, and applying a patch twice equals applying it once |
| `Access.LabIsTheOnlyDifference` | server/storage.ts:130-214 | across the three read filters, the only role whose visibility differs by collection is the lab assistant on prescriptions |
| `Storage.EmptyStore` | server/storage.ts:51-58 | a new store is empty in all six maps, and its counter starts at 1 |
| `Storage.GetUser` | server/storage.ts:90-92 | `getUser` finds a user exactly when the id is a user key, and the user it finds is the one stored under that id |
| `Storage.UserByUsername` | server/storage.ts:94-98 | `getUserByUsername` returns the first user in creation order with that name (names are not unique), and returns undefined exactly when no user has it |
| `Storage.GetUserAfterCreate` | server/storage.ts:90-109 | after `createUser`, `getUser` finds the new user under its id and every other id finds what it found before |
| `Storage.UserByUsernameAfterCreate` | server/storage.ts:94-109 | a new user with a taken name never shadows the earlier one: lookup by name finds the earlier user, and the new one only when the name was free |
| `Storage.CreateUser` | server/storage.ts:100-109 | the new user has the payload's columns and the next id, and is stored under that id after the existing users, which keep their values and order; the counter rises by one and nothing else changes |
| `Storage.AllDoctors` | server/storage.ts:111-113 | `getAllDoctors` lists exactly the active stored doctor records |
| `Storage.DoctorByUserId` | server/storage.ts:115-117 | `getDoctorByUserId` returns the first record in creation order owned by the user, and returns undefined exactly when the user owns none |
| `Storage.CreateDoctor` | server/storage.ts:119-128 | the new doctor record has the payload's columns and the next id, is active, and is stored after the existing records, which keep their values and order; nothing else changes |
| `Storage.AppointmentsFor` | server/storage.ts:130-145 | a caller sees exactly the appointments the access matrix allows: own as patient, by doctor-record id as doctor, all as admin or lab, none otherwise; the list is the stored appointments filtered by the matrix, each once and in creation order |
| `Storage.CreateAppointment` | server/storage.ts:147-158 | the new appointment keeps the payload's columns, is scheduled with a null token number, and is stored under the next id after the existing appointments, which keep their values and order; nothing else changes |
| `Storage.UpdateAppointment` | server/storage.ts:160-169 | a missing id fails and changes nothing; otherwise the merged record replaces the old one in place and no other record or map changes |
| `Storage.PrescriptionsFor` | server/storage.ts:171-185 | a caller sees exactly the prescriptions the matrix allows; lab assistants and unknown roles see none; the list is the stored prescriptions filtered by the matrix, each once and in creation order |
| `Storage.CreatePrescription` | server/storage.ts:187-196 | the new prescription keeps the payload's columns and is stored under the next id after the existing prescriptions, which keep their values and order; nothing else changes |
| `Storage.LabTestsFor` | server/storage.ts:198-214 | a caller sees exactly the lab tests the matrix allows; lab assistants and admins see all; the list is the stored lab tests filtered by the matrix, each once and in creation order |
| `Storage.CreateLabTest` | server/storage.ts:216-230 | the new lab test is requested at the given time, with all four completion fields null, and is stored under the next id after the existing tests, which keep their values and order; nothing else changes |
| `Storage.UpdateLabTest` | server/storage.ts:232-241 | a missing id fails and changes nothing; otherwise the merged record replaces the old one in place |
| `Storage.TodayTokenQueue` | server/storage.ts:243-253 | today's queue holds exactly the stored tokens dated inside the day window |
| `Storage.AssignToken` | server/storage.ts:255-278 | the token takes the next id and is numbered one past today's count, with a wait of 15 minutes per number; the appointment is confirmed with that number in place, keeping its position; a missing appointment fails but the token stays stored |
| `Storage.TodayAppointments` | server/storage.ts:286-289 | exactly the stored appointments dated inside the day window |
| `Storage.TodayLabTests` | server/storage.ts:291-294 | exactly the stored lab tests requested inside the day window |
| `Storage.DashboardStats` | server/storage.ts:280-330 | each role gets its own counters; admin revenue is 50 per appointment today; the lab's two counts never exceed today's tests; unknown roles get the empty object |
| `StoreInvariants.EmptyStoreInv` | server/storage.ts:51-58 | the empty store meets the invariant: ids below the counter, keyed by own id, kinds disjoint, doctors active |
| `StoreInvariants.CreateUserInv` | server/storage.ts:100-109 | creating a user keeps the invariant |
| `StoreInvariants.CreateDoctorInv` | server/storage.ts:119-128 | creating a doctor record keeps the invariant |
| `StoreInvariants.CreateAppointmentInv` | server/storage.ts:147-158 | creating an appointment keeps the invariant |
| `StoreInvariants.CreatePrescriptionInv` | server/storage.ts:187-196 | creating a prescription keeps the invariant |
| `StoreInvariants.CreateLabTestInv` | server/storage.ts:216-230 | creating a lab test keeps the invariant |
| `StoreInvariants.UpdateAppointmentInv` | server/storage.ts:160-169 | updating an appointment keeps the invariant, whether or not the id exists |
| `StoreInvariants.UpdateLabTestInv` | server/storage.ts:232-241 | updating a lab test keeps the invariant, whether or not the id exists |
| `StoreInvariants.AssignTokenInv` | server/storage.ts:255-278 | assigning a token keeps the invariant, orphaned tokens included |
| `StoreInvariants.CounterIsFresh` | server/storage.ts:101 | under the invariant, the next id is a key of no collection, so no two records ever share an id |
| `StoreInvariants.DoctorRecordIdIsNotAUserId` | server/storage.ts:119-128 | a doctor record's id is never the id of a user |
| `StoreInvariants.AllDoctorsListsEveryDoctor` | server/storage.ts:111-113 | under the invariant every doctor record is active, so `getAllDoctors` lists all of them |
| `Dashboard.BookingTodayRaisesAdminCounters` | server/storage.ts:311-317 | booking an appointment dated today adds one to the admin's appointment count and pending approvals, and 50 to revenue |
| `Dashboard.BookingOtherDayLeavesAdminCounters` | server/storage.ts:286-289 | booking for another day changes no admin counter |
| `Dashboard.RequestingLabTestRaisesLabCounters` | server/storage.ts:319-325 | requesting a lab test adds one to pending tests and to the all-time "weekly" total, and leaves completed-today alone |
| `Dashboard.ApprovalsAndCompletionsWithinToday` | server/storage.ts:304-317 | the admin's pending approvals plus the doctor's completed count never exceed today's appointments |
| `Dashboard.PendingLabsAgree` | server/storage.ts:307 | the doctor's pending labs and the lab's pending tests are the same number |
| `Dashboard.LabCountAfterReplace` | server/storage.ts:238-239 | replacing one lab test changes a status count by exactly what the old and the new version contribute |
| `Dashboard.CompletingTodaysTestMovesCounters` | server/storage.ts:319-325 | completing a test requested today moves it from pending to completed-today |
| `Dashboard.ReportsWithinCompletedToday` | server/storage.ts:296-325 | the patient's ready-report count never exceeds the lab's completed-today count |
| `Routes.GetAppointments` | server/routes.ts:33-42 | unauthenticated callers get 401; an authenticated caller gets the stored appointments the access matrix lets their role see, each once and in creation order |
| `Routes.GetPrescriptions` | server/routes.ts:99-108 | unauthenticated callers get 401; an authenticated caller gets the stored prescriptions the access matrix lets their role see, each once and in creation order, so lab assistants get an empty list |
| `Routes.GetLabTests` | server/routes.ts:129-138 | unauthenticated callers get 401; an authenticated caller gets the stored lab tests the access matrix lets their role see, each once and in creation order |
| `Routes.GetDashboardStats` | server/routes.ts:233-242 | unauthenticated callers get 401; an authenticated caller gets the store's counters for their role, and unknown roles get the empty object |
| `Routes.GetDoctors` | server/routes.ts:75-82 | needs no session and returns exactly the active stored doctor records |
| `Routes.GetTokenQueue` | server/routes.ts:209-216 | needs no session and returns exactly the stored tokens dated today |
| `Routes.PostAppointments` | server/routes.ts:44-58 | any authenticated caller books, always as the patient, whatever the body names; the response is the appointment `createAppointment` stored, scheduled |
| `Routes.AppointmentBodyPatch` | server/routes.ts:65-67 | merged into any appointment, the patch leaves status and token number holding exactly what the body had, so a field the body omits is cleared to undefined |
| `Routes.PatchAppointment` | server/routes.ts:60-72 | any authenticated caller may set any status; the stored record takes both body values, even undefined ones; a missing id gives 400 and changes nothing |
| `Routes.PostDoctors` | server/routes.ts:84-96 | only admins succeed, and the response is the doctor record stored under the next id; anyone else gets 403 and nothing changes |
| `Routes.PostPrescriptions` | server/routes.ts:110-126 | only doctors succeed, and `doctorId` becomes the caller's user id; the response is the prescription `createPrescription` stored |
| `Routes.PostLabTests` | server/routes.ts:140-157 | only doctors succeed; the response is the test `createLabTest` stored: requested, with no completion time, and with the caller's user id as `doctorId` |
| `Routes.LabTestBodyPatch` | server/routes.ts:166-173 | merged into any lab test, the patch gives it the body's status and remarks and the caller as assistant; it has a completion time exactly when the status is "completed", and that time is now; the report link is kept |
| `Routes.PatchLabTest` | server/routes.ts:159-179 | only lab assistants succeed; a missing id gives 400 and changes nothing; otherwise the record takes the body's status and remarks and keeps its report |
| `Routes.UploadPatch` | server/routes.ts:193-200 | merged into any lab test, the upload patch leaves it completed, stamped with now and the caller, linked to `/uploads/` plus the file name, with its remarks kept |
| `Routes.PostLabTestUpload` | server/routes.ts:182-206 | a disallowed type gets 500 from the filter for any caller; otherwise a non-lab caller gets 403 with or without a file; a lab assistant without a file, or with an unknown id, gets 400; success completes and stamps the stored test; every failure leaves the store as it was |
| `Routes.PostTokenAssign` | server/routes.ts:218-230 | only admins succeed, and it succeeds exactly when the appointment exists, answering with the token `assignToken` stored; a failing request still stores the token |
| `TokenQueue.AssignTokenAppendsToday` | server/storage.ts:255-269 | a token issued inside the day window is appended to that day's queue |
| `TokenQueue.AssignTokenOtherDay` | server/storage.ts:243-253 | a token issued on another day leaves this day's queue unchanged |
| `TokenQueue.AssignTokenKeepsQueueBelowCounter` | server/storage.ts:256 | every token key stays below the counter |
| `TokenQueue.OneTokenToday` | server/storage.ts:257-258 | one call today grows the day's queue by one and issues the number one past the previous count |
| `TokenQueue.DayCountAfter` | server/storage.ts:255-278 | after n same-day calls, today's queue holds n more tokens |
| `TokenQueue.SameDayTokensAreConsecutive` | server/storage.ts:257-266 | n same-day calls issue the consecutive numbers c+1 to c+n in call order, where c is the day's count before the first call |
| `TokenQueue.FirstTokensOfTheDay` | server/storage.ts:257-258 | on a day with no tokens yet, n calls issue exactly 1 to n |
| `SampleData.Seed` | server/storage.ts:76-87 | the seeding loop takes one id per user and one more per doctor user |
| `SampleData.SeedInv` | server/storage.ts:67-88 | seeding keeps the store invariant |
| `SampleData.SeedStoresNoActivity` | server/storage.ts:67-88 | seeding stores no appointment, prescription, lab test or token |
| `SampleData.SeededUsers` | server/storage.ts:69-74 | the four seeded users in order, with ids 1, 2, 4 and 5 and the listed columns |
| `SampleData.SeededDoctorLookup` | server/storage.ts:78-85 | the seeded doctor user 2 owns doctor record 3 |
| `SampleData.SampleDataIds` | server/storage.ts:63-88 | after seeding the next id is 6; there is one doctor record, id 3, owned by user 2, Cardiology with 5 years; no other records exist |
| `SampleData.InitialStoreInv` | server/storage.ts:51-88 | the constructed store meets the invariant |
| `Server.Handle` | server/routes.ts:44-230 | a write request takes at most one id and never removes a stored record |
| `Server.Run` | server/routes.ts:29-242 | over any run of requests, the counter never falls and rises by at most one per request, and no record is removed |
| `Server.RunCounterMonotone` | server/storage.ts:101 | the counter later in a run is never below an earlier one, so ids are handed out in request order |
| `Server.HandleKeepsInvariants` | server/routes.ts:44-230 | every write request keeps the store invariant and keeps completed lab tests stamped with a time and an assistant |
| `Server.RunKeepsInvariants` | server/routes.ts:44-230 | any run from a store meeting both invariants ends in one meeting both |
| `Server.SeededRunKeepsInvariants` | server/storage.ts:51-88 | every run from the seeded store ends in a store meeting both invariants, with every token key below the counter |
| `Server.DoctorCannotSeeOwnPrescription` | server/routes.ts:116-119 | a prescription a doctor creates is stored but missing from that doctor's own listing |
| `Server.DoctorCannotSeeOwnLabRequest` | server/routes.ts:146-150 | a lab test a doctor requests is stored but missing from that doctor's own listing |
| `Server.StatusEditClearsToken` | server/routes.ts:65-67 | an appointment edit whose body has no token number clears the stored number |
| `Server.LabEditAfterUploadDropsCompletionTime` | server/routes.ts:168-173 | a lab edit after an upload that does not say "completed" clears the completion time but keeps the report |
| `Server.OrphanTokenOnMissingAppointment` | server/storage.ts:269-275 | a token for a missing appointment fails, yet the token is stored and its id is spent |
| `Server.LabSeesNoPrescriptions` | server/storage.ts:180-183 | lab assistants can neither write nor read prescriptions |
| `Scenarios.BookThenIssueToken` | server/storage.ts:255-278 | booking into an empty calendar then issuing its token gives appointment 6, token 7 numbered 1 with a 15-minute wait, the appointment confirmed, and one visit with 50 revenue on the admin dashboard |
| `Scenarios.RequestThenUploadReport` | server/routes.ts:140-206 | an urgent test with no appointment link is requested, then completed by a PDF upload with every completion field set |
| `Scenarios.TextReportIsRejected` | server/routes.ts:19-25 | a text file is turned away for any caller, and nothing changes |
| `Scenarios.UpdateOfUnknownIdFails` | server/storage.ts:160-164 | updating an id never handed out fails at the store and at the route, and changes nothing |
| `Scenarios.SeededBooking` | server/storage.ts:67-88 | the booking scenario runs from the seeded store, ending with one doctor and one visit on the admin dashboard |
| `Scenarios.SeededLabRequest` | server/storage.ts:67-88 | the lab scenario runs from the seeded store: the seeded doctor requests, and the seeded lab assistant uploads |

## Left out

- The session store and authentication (`setupAuth`, passport): the model takes the session's caller, or none, as given.
- HTTP framing: status responses, JSON bodies and `parseInt` of route
  parameters. A route id is an integer, so a `NaN` id is not modelled. It
  would behave like an absent key.
- The upload middleware's disk storage, its generated file names and its
  10 MB size limit. The model takes the stored file name and the declared
  MIME type as given.
- Zod validation of request bodies: bodies arrive already parsed, so the
  400 answer for a malformed body is not modelled. The insert payload types
  keep exactly the columns each insert schema picks.
- Clocks: every `new Date()` becomes the `now` parameter. `assignToken`
  reads the clock twice, once for the day window and once for the token's
  date; both become one `now` with its `dayStart`. So the model has no
  token issued just across midnight.
- Time zones and daylight saving: the day window is
  `[dayStart, dayStart + 86 400 000)`. `setDate(+1)` on a 23- or 25-hour
  day is not modelled.
- Asynchrony: each store method runs to completion before the next starts,
  as on the single-threaded event loop.
- Free text of unknown roles, statuses and priorities: it maps to a
  catch-all constructor and is not kept. Passwords and the medications JSON
  are opaque strings the store never inspects.
- Patches carry only the keys the handlers and `assignToken` pass. A
  caller of `updateAppointment` or `updateLabTest` that passes other keys
  (such as `id`) is not modelled.
- The client pages and components.
- Storage.DashboardStats: the patient's and doctor's status counters, the
  admin's `pendingApprovals` and the lab's `pendingTests` and
  `completedToday` are stated as bounds, not exact counts. Each is a plain
  filter length. `Dashboard` relates them to one another
  (`PendingLabsAgree`, `ApprovalsAndCompletionsWithinToday`,
  `ReportsWithinCompletedToday`) and the admin and lab counters to writes.

=== FILE: access.dfy ===
/** The role-based access matrix as a table, independent of the store's
    `switch` statements: for each collection and role, which rows the caller
    may see. The store's read filters are proved to agree with it. */
module Access {
  import opened JsValues
  import opened Schema

  datatype Collection = Appointments | Prescriptions | LabTests

  /** Which rows of a collection a role sees: the caller's own (as patient),
      those assigned to the caller's doctor record, all of them, or none. */
  datatype Scope = Own | Assigned | Everything | Nothing

  /** The matrix. Lab assistants see every appointment and lab test but no
      prescription; an unrecognised role sees nothing anywhere. */
  function ScopeOf(c: Collection, r: Role): Scope {
    match r
    case Patient => Own
    case Doctor => Assigned
    case Admin => Everything
    case Lab => if c == Prescriptions then Nothing else Everything
    case Other => Nothing
  }

  /** Whether a row with the given patient and doctor keys is visible to
      caller `userId` under `scope`, where `doctorRecordId` is the id of the
      caller's doctor record, if there is one. */
  predicate MaySee(scope: Scope, userId: int, doctorRecordId: Option<int>, rowPatient: int, rowDoctor: int) {
    match scope
    case Own => rowPatient == userId
    case Assigned => doctorRecordId.Some? && rowDoctor == doctorRecordId.value
    case Everything => true
    case Nothing => false
  }

  /** Every role has the same scope on all three collections, except lab
      assistants on prescriptions. */
  lemma LabIsTheOnlyDifference(c: Collection, d: Collection, r: Role)
    requires ScopeOf(c, r) != ScopeOf(d, r)
    ensures r == Lab && (c == Prescriptions || d == Prescriptions)
  {
  }
}

=== FILE: dashboard.dfy ===
/** How the dashboard counters respond to the writes that feed them, and how
    the counters of different roles relate on one store. */
module Dashboard {
  import opened JsValues
  import opened JsArrays
  import opened JsMaps
  import opened Schema
  import opened Storage
  import opened StoreInvariants

  /** Booking an appointment dated today adds one to the admin's appointment
      count and pending approvals and 50 to the revenue; the doctor count is
      unchanged. */
  lemma BookingTodayRaisesAdminCounters(s: Store, a: InsertAppointment, now: Time, dayStart: Time)
    requires Inv(s) && InDay(a.appointmentDate, dayStart)
    ensures var before := DashboardStats(s, Admin, dayStart);
      var after := DashboardStats(CreateAppointment(s, a, now).1, Admin, dayStart);
      && after.todayAppointments == before.todayAppointments + 1
      && after.pendingApprovals == before.pendingApprovals + 1
      && after.revenue == before.revenue + 50
      && after.totalDoctors == before.totalDoctors
  {
    var (appt, s') := CreateAppointment(s, a, now);
    CounterIsFresh(s);
    ValuesSetFresh(s.appointments, s.currentId, appt);
    var today := (x: Appointment) => InDay(x.appointmentDate, dayStart);
    var scheduled := (x: Appointment) => AppointmentHasStatus(x, Scheduled);
    FilterSnoc(Values(s.appointments), appt, today);
    assert TodayAppointments(s', dayStart) == TodayAppointments(s, dayStart) + [appt];
    FilterSnoc(TodayAppointments(s, dayStart), appt, scheduled);
  }

  /** Booking an appointment dated on another day changes no admin counter. */
  lemma BookingOtherDayLeavesAdminCounters(s: Store, a: InsertAppointment, now: Time, dayStart: Time)
    requires Inv(s) && !InDay(a.appointmentDate, dayStart)
    ensures DashboardStats(CreateAppointment(s, a, now).1, Admin, dayStart) == DashboardStats(s, Admin, dayStart)
  {
    var (appt, s') := CreateAppointment(s, a, now);
    CounterIsFresh(s);
    ValuesSetFresh(s.appointments, s.currentId, appt);
    FilterSnoc(Values(s.appointments), appt, (x: Appointment) => InDay(x.appointmentDate, dayStart));
    assert TodayAppointments(s', dayStart) == TodayAppointments(s, dayStart);
  }

  /** Requesting a lab test adds one to the lab's pending count and to its
      (all-time) "weekly" total. */
  lemma RequestingLabTestRaisesLabCounters(s: Store, t: InsertLabTest, now: Time, dayStart: Time)
    requires Inv(s) && InDay(now, dayStart)
    ensures var before := DashboardStats(s, Lab, dayStart);
      var after := DashboardStats(CreateLabTest(s, t, now).1, Lab, dayStart);
      && after.pendingTests == before.pendingTests + 1
      && after.completedToday == before.completedToday
      && after.weeklyTotal == before.weeklyTotal + 1
  {
    var (test, s') := CreateLabTest(s, t, now);
    CounterIsFresh(s);
    ValuesSetFresh(s.labTests, s.currentId, test);
    FilterSnoc(Values(s.labTests), test, (x: LabTest) => InDay(x.requestedAt, dayStart));
    assert TodayLabTests(s', dayStart) == TodayLabTests(s, dayStart) + [test];
    FilterSnoc(TodayLabTests(s, dayStart), test, (x: LabTest) => LabTestHasStatus(x, Requested));
    FilterSnoc(TodayLabTests(s, dayStart), test, (x: LabTest) => LabTestHasStatus(x, LabStatus.Completed));
  }

  /** Today's appointments awaiting approval and today's completed ones are
      disjoint, so together they never exceed today's appointment count. */
  lemma ApprovalsAndCompletionsWithinToday(s: Store, dayStart: Time)
    ensures DashboardStats(s, Admin, dayStart).pendingApprovals + DashboardStats(s, Doctor, dayStart).completed
         <= DashboardStats(s, Admin, dayStart).todayAppointments
  {
    FilterDisjointCount(TodayAppointments(s, dayStart),
                        (x: Appointment) => AppointmentHasStatus(x, Scheduled),
                        (x: Appointment) => AppointmentHasStatus(x, AppointmentStatus.Completed));
  }

  /** The lab's pending count and the doctor's pending-labs count are the
      same number read under two roles. */
  lemma PendingLabsAgree(s: Store, dayStart: Time)
    ensures DashboardStats(s, Lab, dayStart).pendingTests == DashboardStats(s, Doctor, dayStart).pendingLabs
  {
  }

  /** Lab tests requested today that have a given status. */
  function TodayWithStatus(s: Store, dayStart: Time, st: LabStatus): seq<LabTest> {
    Filter(TodayLabTests(s, dayStart), (x: LabTest) => LabTestHasStatus(x, st))
  }

  /** Replacing one lab test changes the count of today's tests with a status
      by what the old version took away and the new version adds. */
  lemma LabCountAfterReplace(s: Store, id: int, v: LabTest, dayStart: Time, st: LabStatus)
    requires id in s.labTests.entries
    ensures var prior := s.labTests.entries[id];
      var inOld := InDay(prior.requestedAt, dayStart) && LabTestHasStatus(prior, st);
      var inNew := InDay(v.requestedAt, dayStart) && LabTestHasStatus(v, st);
      |TodayWithStatus(s.(labTests := Set(s.labTests, id, v)), dayStart, st)| + (if inOld then 1 else 0)
        == |TodayWithStatus(s, dayStart, st)| + (if inNew then 1 else 0)
  {
    var s' := s.(labTests := Set(s.labTests, id, v));
    var i := IndexOfKey(s.labTests, id);
    ValuesSetExisting(s.labTests, id, v, i);
    var today := (x: LabTest) => InDay(x.requestedAt, dayStart);
    var has := (x: LabTest) => LabTestHasStatus(x, st);
    var both := (x: LabTest) => InDay(x.requestedAt, dayStart) && LabTestHasStatus(x, st);
    FilterFilter(Values(s.labTests), today, has, both);
    FilterFilter(Values(s'.labTests), today, has, both);
    FilterCountUpdate(Values(s.labTests), i, v, both);
  }

  /** Completing a test requested today (a report upload or a status update)
      moves it from the lab's pending count to its completed-today count. */
  lemma CompletingTodaysTestMovesCounters(s: Store, id: int, p: LabTestPatch, dayStart: Time)
    requires id in s.labTests.entries
    requires InDay(s.labTests.entries[id].requestedAt, dayStart)
    requires s.labTests.entries[id].status == Present(Requested)
    requires p.status == Some(Present(LabStatus.Completed))
    ensures var before := DashboardStats(s, Lab, dayStart);
      var after := DashboardStats(UpdateLabTest(s, id, p).store, Lab, dayStart);
      && after.pendingTests + 1 == before.pendingTests
      && after.completedToday == before.completedToday + 1
      && after.weeklyTotal == before.weeklyTotal
  {
    var v := UpdateLabTest(s, id, p).result.value;
    var s' := UpdateLabTest(s, id, p).store;
    assert s' == s.(labTests := Set(s.labTests, id, v));
    assert DashboardStats(s, Lab, dayStart).pendingTests == |TodayWithStatus(s, dayStart, Requested)|;
    assert DashboardStats(s, Lab, dayStart).completedToday == |TodayWithStatus(s, dayStart, LabStatus.Completed)|;
    assert DashboardStats(s', Lab, dayStart).pendingTests == |TodayWithStatus(s', dayStart, Requested)|;
    assert DashboardStats(s', Lab, dayStart).completedToday == |TodayWithStatus(s', dayStart, LabStatus.Completed)|;
    LabCountAfterReplace(s, id, v, dayStart, Requested);
    LabCountAfterReplace(s, id, v, dayStart, LabStatus.Completed);
  }

  /** A patient's reports ready today are among the tests the lab completed
      today: both count today's completed tests, the patient's count only
      those with a report link. */
  lemma ReportsWithinCompletedToday(s: Store, dayStart: Time)
    ensures DashboardStats(s, Patient, dayStart).pendingReports <= DashboardStats(s, Lab, dayStart).completedToday
  {
    FilterWeaker(TodayLabTests(s, dayStart),
                 (t: LabTest) => LabTestHasStatus(t, LabStatus.Completed) && TruthyText(t.reportUrl),
                 (t: LabTest) => LabTestHasStatus(t, LabStatus.Completed));
  }
}

=== FILE: invariants.dfy ===
/** The store invariant every write preserves: all ids come from the one
    counter, so they lie below it, no id is used by two records of any kinds,
    every record carries its own key as `id`, and every doctor record is
    active (nothing ever deactivates one). */
module StoreInvariants {
  import opened JsValues
  import opened JsMaps
  import opened Schema
  import opened Storage

  function UserId(u: User): int { u.id }
  function DoctorId(d: DoctorRecord): int { d.id }
  function AppointmentId(a: Appointment): int { a.id }
  function PrescriptionId(p: Prescription): int { p.id }
  function LabTestId(t: LabTest): int { t.id }
  function TokenId(t: TokenEntry): int { t.id }

  /** Every key of m lies in [1, bound) and is the id of the record it holds. */
  ghost predicate Keyed<V>(m: JsMap<V>, id: V -> int, bound: int) {
    forall k :: k in m.entries ==> 1 <= k < bound && id(m.entries[k]) == k
  }

  /** The key sets of the six collections, in declaration order. */
  ghost function KeySets(s: Store): seq<set<int>> {
    [s.users.entries.Keys, s.doctors.entries.Keys, s.appointments.entries.Keys,
     s.prescriptions.entries.Keys, s.labTests.entries.Keys, s.tokenQueue.entries.Keys]
  }

  ghost predicate DisjointKinds(s: Store) {
    forall i, j :: 0 <= i < j < |KeySets(s)| ==> KeySets(s)[i] !! KeySets(s)[j]
  }

  ghost predicate Inv(s: Store) {
    && s.currentId >= 1
    && Keyed(s.users, UserId, s.currentId)
    && Keyed(s.doctors, DoctorId, s.currentId)
    && Keyed(s.appointments, AppointmentId, s.currentId)
    && Keyed(s.prescriptions, PrescriptionId, s.currentId)
    && Keyed(s.labTests, LabTestId, s.currentId)
    && Keyed(s.tokenQueue, TokenId, s.currentId)
    && DisjointKinds(s)
    && (forall k :: k in s.doctors.entries ==> s.doctors.entries[k].isActive)
  }

  /** Every record key of s is still a key of the same collection in r. */
  ghost predicate KeepsRecords(s: Store, r: Store) {
    && s.users.entries.Keys <= r.users.entries.Keys
    && s.doctors.entries.Keys <= r.doctors.entries.Keys
    && s.appointments.entries.Keys <= r.appointments.entries.Keys
    && s.prescriptions.entries.Keys <= r.prescriptions.entries.Keys
    && s.labTests.entries.Keys <= r.labTests.entries.Keys
    && s.tokenQueue.entries.Keys <= r.tokenQueue.entries.Keys
  }

  // ---- Helpers ----

  lemma KeyedRaise<V>(m: JsMap<V>, id: V -> int, bound: int)
    requires Keyed(m, id, bound)
    ensures Keyed(m, id, bound + 1)
  {
  }

  /** Adding the record whose id is the bound keeps the map keyed, one higher. */
  lemma KeyedInsert<V>(m: JsMap<V>, id: V -> int, bound: int, v: V)
    requires Keyed(m, id, bound) && bound >= 1 && id(v) == bound
    ensures Keyed(Set(m, bound, v), id, bound + 1)
  {
  }

  /** Replacing a present record by one with the same id keeps the map keyed. */
  lemma KeyedReplace<V>(m: JsMap<V>, id: V -> int, bound: int, k: int, v: V)
    requires Keyed(m, id, bound) && k in m.entries && id(v) == k
    ensures Keyed(Set(m, k, v), id, bound)
  {
  }

  /** Under the invariant the counter is a key of no collection. */
  lemma CounterIsFresh(s: Store)
    requires Inv(s)
    ensures forall i :: 0 <= i < |KeySets(s)| ==> s.currentId !in KeySets(s)[i]
  {
  }

  /** Adding the counter as a key of one collection keeps the kinds disjoint. */
  lemma DisjointAfterInsert(s: Store, s': Store, i: int)
    requires Inv(s) && 0 <= i < 6
    requires KeySets(s') == KeySets(s)[i := KeySets(s)[i] + {s.currentId}]
    ensures DisjointKinds(s')
  {
    CounterIsFresh(s);
    forall a, b | 0 <= a < b < 6
      ensures KeySets(s')[a] !! KeySets(s')[b]
    {
      assert KeySets(s)[a] !! KeySets(s)[b];
    }
  }

  /** Raising the counter by one keeps every untouched collection keyed. */
  lemma RaiseAll(s: Store)
    requires Inv(s)
    ensures Keyed(s.users, UserId, s.currentId + 1)
    ensures Keyed(s.doctors, DoctorId, s.currentId + 1)
    ensures Keyed(s.appointments, AppointmentId, s.currentId + 1)
    ensures Keyed(s.prescriptions, PrescriptionId, s.currentId + 1)
    ensures Keyed(s.labTests, LabTestId, s.currentId + 1)
    ensures Keyed(s.tokenQueue, TokenId, s.currentId + 1)
  {
    KeyedRaise(s.users, UserId, s.currentId);
    KeyedRaise(s.doctors, DoctorId, s.currentId);
    KeyedRaise(s.appointments, AppointmentId, s.currentId);
    KeyedRaise(s.prescriptions, PrescriptionId, s.currentId);
    KeyedRaise(s.labTests, LabTestId, s.currentId);
    KeyedRaise(s.tokenQueue, TokenId, s.currentId);
  }

  // ---- Every write preserves the invariant ----

  lemma EmptyStoreInv()
    ensures Inv(EmptyStore())
  {
    var s := EmptyStore();
    assert forall i :: 0 <= i < 6 ==> KeySets(s)[i] == {};
  }

  lemma CreateUserInv(s: Store, u: InsertUser, now: Time)
    requires Inv(s)
    ensures Inv(CreateUser(s, u, now).1)
  {
    var (user, s') := CreateUser(s, u, now);
    RaiseAll(s);
    KeyedInsert(s.users, UserId, s.currentId, user);
    DisjointAfterInsert(s, s', 0);
  }

  lemma CreateDoctorInv(s: Store, d: InsertDoctor)
    requires Inv(s)
    ensures Inv(CreateDoctor(s, d).1)
  {
    var (doctor, s') := CreateDoctor(s, d);
    RaiseAll(s);
    KeyedInsert(s.doctors, DoctorId, s.currentId, doctor);
    DisjointAfterInsert(s, s', 1);
  }

  lemma CreateAppointmentInv(s: Store, a: InsertAppointment, now: Time)
    requires Inv(s)
    ensures Inv(CreateAppointment(s, a, now).1)
  {
    var (appointment, s') := CreateAppointment(s, a, now);
    RaiseAll(s);
    KeyedInsert(s.appointments, AppointmentId, s.currentId, appointment);
    DisjointAfterInsert(s, s', 2);
  }

  lemma CreatePrescriptionInv(s: Store, p: InsertPrescription, now: Time)
    requires Inv(s)
    ensures Inv(CreatePrescription(s, p, now).1)
  {
    var (prescription, s') := CreatePrescription(s, p, now);
    RaiseAll(s);
    KeyedInsert(s.prescriptions, PrescriptionId, s.currentId, prescription);
    DisjointAfterInsert(s, s', 3);
  }

  lemma CreateLabTestInv(s: Store, t: InsertLabTest, now: Time)
    requires Inv(s)
    ensures Inv(CreateLabTest(s, t, now).1)
  {
    var (test, s') := CreateLabTest(s, t, now);
    RaiseAll(s);
    KeyedInsert(s.labTests, LabTestId, s.currentId, test);
    DisjointAfterInsert(s, s', 4);
  }

  lemma UpdateAppointmentInv(s: Store, id: int, p: AppointmentPatch)
    requires Inv(s)
    ensures Inv(UpdateAppointment(s, id, p).store)
  {
    var r := UpdateAppointment(s, id, p);
    if id in s.appointments.entries {
      KeyedReplace(s.appointments, AppointmentId, s.currentId, id, r.result.value);
      assert KeySets(r.store) == KeySets(s);
    }
  }

  lemma UpdateLabTestInv(s: Store, id: int, p: LabTestPatch)
    requires Inv(s)
    ensures Inv(UpdateLabTest(s, id, p).store)
  {
    var r := UpdateLabTest(s, id, p);
    if id in s.labTests.entries {
      KeyedReplace(s.labTests, LabTestId, s.currentId, id, r.result.value);
      assert KeySets(r.store) == KeySets(s);
    }
  }

  lemma AssignTokenInv(s: Store, appointmentId: int, now: Time, dayStart: Time)
    requires Inv(s)
    ensures Inv(AssignToken(s, appointmentId, now, dayStart).store)
  {
    var r := AssignToken(s, appointmentId, now, dayStart);
    var token := r.store.tokenQueue.entries[s.currentId];
    // The store after the token insert and before the appointment update.
    var mid := s.(tokenQueue := Set(s.tokenQueue, s.currentId, token), currentId := s.currentId + 1);
    RaiseAll(s);
    KeyedInsert(s.tokenQueue, TokenId, s.currentId, token);
    DisjointAfterInsert(s, mid, 5);
    assert Inv(mid);
    assert r.store.tokenQueue == mid.tokenQueue;
    if appointmentId in s.appointments.entries {
      assert r.store == UpdateAppointment(mid, appointmentId,
        AppointmentPatch(Some(Present(Confirmed)), Some(Present(token.tokenNumber)))).store;
      UpdateAppointmentInv(mid, appointmentId,
        AppointmentPatch(Some(Present(Confirmed)), Some(Present(token.tokenNumber))));
    } else {
      assert r.store == mid;
    }
  }

  // ---- Consequences ----

  /** A record's id and the owning user's id never coincide for a doctor
      record: the two come from different collections. */
  lemma DoctorRecordIdIsNotAUserId(s: Store, d: DoctorRecord, userId: int)
    requires Inv(s) && d in Values(s.doctors) && userId in s.users.entries
    ensures d.id != userId
  {
    ValuesAreEntries(s.doctors, d);
    var k :| k in s.doctors.entries && s.doctors.entries[k] == d;
    assert KeySets(s)[0] !! KeySets(s)[1];
  }

  /** Under the invariant `getAllDoctors()` lists every doctor record, so the
      admin's `totalDoctors` equals the length of that list. */
  lemma AllDoctorsListsEveryDoctor(s: Store)
    requires Inv(s)
    ensures AllDoctors(s) == Values(s.doctors)
    ensures |AllDoctors(s)| == Size(s.doctors)
  {
    var vs := Values(s.doctors);
    forall i | 0 <= i < |vs|
      ensures vs[i].isActive
    {
      var k := s.doctors.keys[i];
      assert k in s.doctors.entries && vs[i] == s.doctors.entries[k];
      assert s.doctors.entries[k].isActive;
    }
    JsArrays.FilterKeepsAll(vs, (d: DoctorRecord) => d.isActive);
  }
}

=== FILE: js_arrays.dfy ===
/** The two array operations the store uses, `filter` and `find`, over
    sequences in insertion order. */
module JsArrays {
  import opened JsValues

  /** `xs.filter(p)`: the elements of xs that satisfy p, in their order. */
  function Filter<T(==,!new)>(xs: seq<T>, p: T -> bool): (r: seq<T>)
    ensures |r| <= |xs|
    ensures forall x :: x in r <==> x in xs && p(x)
    decreases |xs|
  {
    if |xs| == 0 then []
    else
      var init, last := xs[..|xs| - 1], xs[|xs| - 1];
      assert xs == init + [last];
      Filter(init, p) + (if p(last) then [last] else [])
  }

  /** Filtering an appended element adds it exactly when it passes. */
  lemma FilterSnoc<T(!new)>(xs: seq<T>, y: T, p: T -> bool)
    ensures Filter(xs + [y], p) == Filter(xs, p) + (if p(y) then [y] else [])
  {
    assert (xs + [y])[..|xs|] == xs;
  }

  /** Concatenation regroups freely; stated apart so that no filter facts
      are in scope when it is proved. */
  lemma ConcatAssoc<T>(a: seq<T>, b: seq<T>, c: seq<T>)
    ensures (a + b) + c == a + (b + c)
  {
  }

  /** Filtering a prepended element keeps it in front exactly when it passes. */
  lemma {:induction false} FilterCons<T(!new)>(x: T, xs: seq<T>, p: T -> bool)
    ensures Filter([x] + xs, p) == (if p(x) then [x] else []) + Filter(xs, p)
    decreases |xs|
  {
    var front := if p(x) then [x] else [];
    if |xs| == 0 {
      assert [x] + xs == [] + [x];
      FilterSnoc([], x, p);
    } else {
      var init, last := xs[..|xs| - 1], xs[|xs| - 1];
      var ys, back := [x] + init, if p(last) then [last] else [];
      assert xs == init + [last] && [x] + xs == ys + [last];
      FilterSnoc(ys, last, p);
      FilterCons(x, init, p);
      FilterSnoc(init, last, p);
      assert Filter([x] + xs, p) == (front + Filter(init, p)) + back;
      ConcatAssoc(front, Filter(init, p), back);
    }
  }

  /** Filtering with a predicate every element passes keeps everything. */
  lemma {:induction false} FilterKeepsAll<T(!new)>(xs: seq<T>, p: T -> bool)
    requires forall i :: 0 <= i < |xs| ==> p(xs[i])
    ensures Filter(xs, p) == xs
    decreases |xs|
  {
    if |xs| > 0 {
      var init, last := xs[..|xs| - 1], xs[|xs| - 1];
      forall i | 0 <= i < |init|
        ensures p(init[i])
      {
        assert init[i] == xs[i];
      }
      FilterKeepsAll(init, p);
      assert xs == init + [last];
      FilterSnoc(init, last, p);
    }
  }

  /** Filtering with a predicate no element passes keeps nothing. */
  lemma {:induction false} FilterKeepsNone<T(!new)>(xs: seq<T>, p: T -> bool)
    requires forall i :: 0 <= i < |xs| ==> !p(xs[i])
    ensures Filter(xs, p) == []
    decreases |xs|
  {
    if |xs| > 0 {
      FilterKeepsNone(xs[..|xs| - 1], p);
    }
  }

  /** Predicates that agree on every element select the same elements. */
  lemma {:induction false} FilterExt<T(!new)>(xs: seq<T>, p: T -> bool, q: T -> bool)
    requires forall i :: 0 <= i < |xs| ==> p(xs[i]) == q(xs[i])
    ensures Filter(xs, p) == Filter(xs, q)
    decreases |xs|
  {
    if |xs| > 0 {
      FilterExt(xs[..|xs| - 1], p, q);
    }
  }

  /** Two predicates that no element satisfies together select at most
      |xs| elements between them. */
  lemma {:induction false} FilterDisjointCount<T(!new)>(xs: seq<T>, p: T -> bool, q: T -> bool)
    requires forall i :: 0 <= i < |xs| ==> !(p(xs[i]) && q(xs[i]))
    ensures |Filter(xs, p)| + |Filter(xs, q)| <= |xs|
    decreases |xs|
  {
    if |xs| > 0 {
      FilterDisjointCount(xs[..|xs| - 1], p, q);
    }
  }

  /** A predicate that implies another selects no more elements. */
  lemma {:induction false} FilterWeaker<T(!new)>(xs: seq<T>, p: T -> bool, q: T -> bool)
    requires forall i :: 0 <= i < |xs| && p(xs[i]) ==> q(xs[i])
    ensures |Filter(xs, p)| <= |Filter(xs, q)|
    decreases |xs|
  {
    if |xs| > 0 {
      FilterWeaker(xs[..|xs| - 1], p, q);
    }
  }

  /** Filtering by p and then by q is filtering once by their conjunction pq. */
  lemma {:induction false} FilterFilter<T(!new)>(xs: seq<T>, p: T -> bool, q: T -> bool, pq: T -> bool)
    requires forall x :: pq(x) == (p(x) && q(x))
    ensures Filter(Filter(xs, p), q) == Filter(xs, pq)
    decreases |xs|
  {
    if |xs| > 0 {
      var init, last := xs[..|xs| - 1], xs[|xs| - 1];
      FilterFilter(init, p, q, pq);
      assert Filter(xs, pq) == Filter(init, pq) + (if pq(last) then [last] else []);
      if p(last) {
        assert Filter(xs, p) == Filter(init, p) + [last];
        FilterSnoc(Filter(init, p), last, q);
      } else {
        assert Filter(xs, p) == Filter(init, p) + [];
        assert Filter(xs, p) == Filter(init, p);
        assert Filter(xs, pq) == Filter(init, pq);
      }
    }
  }

  /** Replacing one element changes a filter's count by what the old element
      took away and the new one adds. */
  lemma {:induction false} FilterCountUpdate<T(!new)>(xs: seq<T>, i: int, y: T, p: T -> bool)
    requires 0 <= i < |xs|
    ensures |Filter(xs[i := y], p)| + (if p(xs[i]) then 1 else 0) == |Filter(xs, p)| + (if p(y) then 1 else 0)
    decreases |xs|
  {
    var n := |xs| - 1;
    var ys := xs[i := y];
    assert xs == xs[..n] + [xs[n]] && ys == ys[..n] + [ys[n]];
    FilterSnoc(xs[..n], xs[n], p);
    FilterSnoc(ys[..n], ys[n], p);
    if i == n {
      assert ys[..n] == xs[..n];
    } else {
      assert ys[..n] == xs[..n][i := y] && ys[n] == xs[n];
      FilterCountUpdate(xs[..n], i, y, p);
    }
  }

  /** `xs.find(p)`: the first element of xs that satisfies p, if any. */
  function Find<T>(xs: seq<T>, p: T -> bool): (r: Option<T>)
    ensures r.Some? ==> exists i :: 0 <= i < |xs| && xs[i] == r.value && p(xs[i]) && FirstAt(xs, p, i)
    ensures r.None? <==> forall i :: 0 <= i < |xs| ==> !p(xs[i])
    decreases |xs|
  {
    if |xs| == 0 then None
    else
      var init, last := xs[..|xs| - 1], xs[|xs| - 1];
      match Find(init, p)
      case Some(x) => Some(x)
      case None => if p(last) then Some(last) else None
  }

  /** No element before index i satisfies p. */
  ghost predicate FirstAt<T>(xs: seq<T>, p: T -> bool, i: int)
    requires 0 <= i <= |xs|
  {
    forall j :: 0 <= j < i ==> !p(xs[j])
  }

  /** An appended element cannot displace an earlier match. */
  lemma FindSnoc<T>(xs: seq<T>, y: T, p: T -> bool)
    ensures Find(xs + [y], p) == (if Find(xs, p).Some? then Find(xs, p) else if p(y) then Some(y) else None)
  {
    assert (xs + [y])[..|xs|] == xs;
  }
}

=== FILE: js_maps.dfy ===
/** A JavaScript `Map` with integer keys: a key list in insertion order plus
    the key-to-value table. `set` on a present key keeps its position;
    `values()` yields the values in key insertion order. */
module JsMaps {
  import opened JsValues

  datatype RawMap<V> = RawMap(keys: seq<int>, entries: map<int, V>)

  /** Keys are listed once each, and exactly the listed keys have entries. */
  ghost predicate WellFormed<V>(m: RawMap<V>) {
    && (forall i, j :: 0 <= i < j < |m.keys| ==> m.keys[i] != m.keys[j])
    && (forall k :: k in m.entries <==> k in m.keys)
  }

  type JsMap<V> = m: RawMap<V> | WellFormed(m) witness RawMap([], map[])

  /** `new Map()`. */
  function Empty<V>(): (m: JsMap<V>)
    ensures Size(m) == 0
    ensures forall k :: Get(m, k).None?
  {
    RawMap([], map[])
  }

  /** `m.get(k)`. */
  function Get<V>(m: JsMap<V>, k: int): Option<V> {
    if k in m.entries then Some(m.entries[k]) else None
  }

  /** `m.size`. */
  function Size<V>(m: JsMap<V>): nat {
    |m.keys|
  }

  /** `m.set(k, v)`: afterwards k maps to v, every other key keeps its value,
      and the size grows by one exactly when k was new. */
  function Set<V>(m: JsMap<V>, k: int, v: V): (r: JsMap<V>)
    ensures Get(r, k) == Some(v)
    ensures forall k' :: k' != k ==> Get(r, k') == Get(m, k')
    ensures r.entries.Keys == m.entries.Keys + {k}
    ensures Size(r) == if k in m.entries then Size(m) else Size(m) + 1
  {
    if k in m.entries then RawMap(m.keys, m.entries[k := v])
    else RawMap(m.keys + [k], m.entries[k := v])
  }

  /** `Array.from(m.values())`: one value per key, in key insertion order. */
  function Values<V>(m: JsMap<V>): (r: seq<V>)
    ensures |r| == Size(m)
    ensures forall i :: 0 <= i < |r| ==> m.keys[i] in m.entries && r[i] == m.entries[m.keys[i]]
  {
    assert forall i :: 0 <= i < |m.keys| ==> m.keys[i] in m.keys;
    seq(|m.keys|, i requires 0 <= i < |m.keys| => m.entries[m.keys[i]])
  }

  /** Every listed value is the entry of some key, and every entry is listed. */
  lemma ValuesAreEntries<V>(m: JsMap<V>, v: V)
    ensures v in Values(m) <==> exists k :: k in m.entries && m.entries[k] == v
  {
    var vs := Values(m);
    if v in vs {
      var i :| 0 <= i < |vs| && vs[i] == v;
      assert m.keys[i] in m.entries;
    }
    if exists k :: k in m.entries && m.entries[k] == v {
      var k :| k in m.entries && m.entries[k] == v;
      var i :| 0 <= i < |m.keys| && m.keys[i] == k;
      assert vs[i] == v;
    }
  }

  /** Setting a new key appends its value to `values()`. */
  lemma ValuesSetFresh<V>(m: JsMap<V>, k: int, v: V)
    requires k !in m.entries
    ensures Values(Set(m, k, v)) == Values(m) + [v]
  {
    var r := Set(m, k, v);
    assert r.keys == m.keys + [k];
    forall i | 0 <= i < |m.keys|
      ensures Values(r)[i] == Values(m)[i]
    {
      assert r.keys[i] == m.keys[i] && m.keys[i] != k;
    }
  }

  /** Setting a present key replaces its value in place in `values()`. */
  lemma ValuesSetExisting<V>(m: JsMap<V>, k: int, v: V, i: int)
    requires 0 <= i < |m.keys| && m.keys[i] == k
    ensures Values(Set(m, k, v)) == Values(m)[i := v]
  {
    var r := Set(m, k, v);
    forall j | 0 <= j < |m.keys|
      ensures Values(r)[j] == Values(m)[i := v][j]
    {
      if j != i {
        assert m.keys[j] != k;
      }
    }
  }

  /** The position of a present key in insertion order. */
  lemma IndexOfKey<V>(m: JsMap<V>, k: int) returns (i: int)
    requires k in m.entries
    ensures 0 <= i < |m.keys| && m.keys[i] == k
  {
    i :| 0 <= i < |m.keys| && m.keys[i] == k;
  }
}

=== FILE: js_values.dfy ===
/** JavaScript values the record store relies on: property slots that may be
    undefined or null, optional results, and the error-carrying result type. */
module JsValues {

  /** One property of a JavaScript object. `Undefined` is both "the key is
      missing" and "the key holds undefined"; `Null` is an explicit null. */
  datatype Field<+T> = Undefined | Null | Present(value: T)

  /** A lookup that may come back empty (`undefined` in JavaScript). */
  datatype Option<+T> = None | Some(value: T)

  /** The outcome of an operation that can fail with an error of type E. */
  datatype Result<+T, +E> = Ok(value: T) | Err(error: E)

  /** JavaScript truthiness of a text property: set and not the empty string. */
  predicate TruthyText(f: Field<string>) {
    f.Present? && f.value != ""
  }

  /** The value one key holds after the shallow spread `{...old, ...patch}`:
      the patch's value whenever the patch object HAS the key, even when that
      value is undefined; the old value otherwise. `key == None` means the
      patch object has no such key. */
  function Spread<T>(prior: T, key: Option<T>): T {
    match key
    case Some(v) => v
    case None => prior
  }
}

=== FILE: routes.dfy ===
/** The HTTP handlers' part of the logic: who may call each endpoint, and the
    exact payload each handler hands to the store. Request parsing, status
    responses and file storage stay outside; a handler sees the session's
    caller, the already-parsed body fields and the store. */
module Routes {
  import opened JsValues
  import opened JsArrays
  import opened JsMaps
  import opened Schema
  import opened Access
  import opened Storage

  /** The authenticated user as the session reports it. */
  datatype Caller = Caller(id: int, role: Role)

  /** The request's session: `None` when `req.isAuthenticated()` is false. */
  type Session = Option<Caller>

  /** Why a handler did not succeed: 401, 403 and 400 in that order;
      `Rejected` is the upload filter's error, raised before the handler
      runs, which the default error handler answers with 500. */
  datatype HttpError = Unauthenticated | Forbidden | Failed | Rejected

  /** A handler's answer and the store it leaves behind. */
  datatype Response<T> = Response(body: Result<T, HttpError>, store: Store)

  /** `req.isAuthenticated() && req.user.role === role`. */
  predicate HasRole(session: Session, role: Role) {
    session.Some? && session.value.role == role
  }

  // ---- Reads: any authenticated caller, filtered by the store ----

  /** GET /api/appointments. */
  function GetAppointments(s: Store, session: Session): (r: Result<seq<Appointment>, HttpError>)
    ensures r.Err? <==> session.None?
    ensures r.Err? ==> r.error == Unauthenticated
    ensures r.Ok? ==> r.value == Filter(Values(s.appointments), SeesAppointment(s, session.value.id, session.value.role))
    ensures r.Ok? ==> forall a :: a in r.value <==>
      a in Values(s.appointments)
      && MaySee(ScopeOf(Appointments, session.value.role), session.value.id,
                DoctorRecordId(s, session.value.id), a.patientId, a.doctorId)
  {
    match session
    case None => Err(Unauthenticated)
    case Some(c) => Ok(AppointmentsFor(s, c.id, c.role))
  }

  /** GET /api/prescriptions. */
  function GetPrescriptions(s: Store, session: Session): (r: Result<seq<Prescription>, HttpError>)
    ensures r.Err? <==> session.None?
    ensures r.Err? ==> r.error == Unauthenticated
    ensures r.Ok? ==> r.value == Filter(Values(s.prescriptions), SeesPrescription(s, session.value.id, session.value.role))
    ensures r.Ok? ==> forall p :: p in r.value <==>
      p in Values(s.prescriptions)
      && MaySee(ScopeOf(Prescriptions, session.value.role), session.value.id,
                DoctorRecordId(s, session.value.id), p.patientId, p.doctorId)
    ensures HasRole(session, Lab) ==> r == Ok([])
  {
    match session
    case None => Err(Unauthenticated)
    case Some(c) => Ok(PrescriptionsFor(s, c.id, c.role))
  }

  /** GET /api/lab-tests. */
  function GetLabTests(s: Store, session: Session): (r: Result<seq<LabTest>, HttpError>)
    ensures r.Err? <==> session.None?
    ensures r.Err? ==> r.error == Unauthenticated
    ensures r.Ok? ==> r.value == Filter(Values(s.labTests), SeesLabTest(s, session.value.id, session.value.role))
    ensures r.Ok? ==> forall t :: t in r.value <==>
      t in Values(s.labTests)
      && MaySee(ScopeOf(LabTests, session.value.role), session.value.id,
                DoctorRecordId(s, session.value.id), t.patientId, t.doctorId)
  {
    match session
    case None => Err(Unauthenticated)
    case Some(c) => Ok(LabTestsFor(s, c.id, c.role))
  }

  /** GET /api/dashboard/stats: the caller's role picks the counters. */
  function GetDashboardStats(s: Store, session: Session, dayStart: Time): (r: Result<Stats, HttpError>)
    ensures r.Err? <==> session.None?
    ensures r.Ok? ==> (r.value.NoStats? <==> session.value.role == Role.Other)
    ensures r.Ok? ==> r.value == DashboardStats(s, session.value.role, dayStart)
  {
    match session
    case None => Err(Unauthenticated)
    case Some(c) => Ok(DashboardStats(s, c.role, dayStart))
  }

  /** GET /api/doctors needs no session at all. */
  function GetDoctors(s: Store): (r: seq<DoctorRecord>)
    ensures forall d :: d in r <==> d in Values(s.doctors) && d.isActive
  {
    AllDoctors(s)
  }

  /** GET /api/token-queue needs no session at all. */
  function GetTokenQueue(s: Store, dayStart: Time): (r: seq<TokenEntry>)
    ensures forall t :: t in r <==> t in Values(s.tokenQueue) && InDay(t.queueDate, dayStart)
  {
    TodayTokenQueue(s, dayStart)
  }

  // ---- Writes ----

  /** POST /api/appointments: any authenticated caller books, always as the
      patient, whatever patient id the body names. */
  function PostAppointments(s: Store, session: Session, body: InsertAppointment, now: Time): (r: Response<Appointment>)
    ensures session.None? ==> r == Response(Err(Unauthenticated), s)
    ensures session.Some? ==>
      && r.body.Ok?
      && r.body.value.patientId == session.value.id
      && r.body.value.doctorId == body.doctorId
      && r.body.value.appointmentDate == body.appointmentDate
      && r.body.value.status == Present(Scheduled)
      && r.body.value == CreateAppointment(s, body.(patientId := session.value.id), now).0
      && r.store == CreateAppointment(s, body.(patientId := session.value.id), now).1
  {
    match session
    case None => Response(Err(Unauthenticated), s)
    case Some(c) =>
      var (a, s') := CreateAppointment(s, body.(patientId := c.id), now);
      Response(Ok(a), s')
  }

  /** The patch PATCH /api/appointments/:id builds: both keys, always, each
      holding whatever the body had (undefined when the body lacks it). */
  function AppointmentBodyPatch(status: Field<AppointmentStatus>, tokenNumber: Field<int>): (p: AppointmentPatch)
    ensures forall a :: MergeAppointment(a, p).status == status && MergeAppointment(a, p).tokenNumber == tokenNumber
  {
    AppointmentPatch(Some(status), Some(tokenNumber))
  }

  /** PATCH /api/appointments/:id: any authenticated caller, any status, no
      transition check. Both keys are written, so a key the body omits is
      cleared to undefined. */
  function PatchAppointment(s: Store, session: Session, id: int, status: Field<AppointmentStatus>,
                            tokenNumber: Field<int>): (r: Response<Appointment>)
    ensures session.None? ==> r == Response(Err(Unauthenticated), s)
    ensures session.Some? && id !in s.appointments.entries ==> r == Response(Err(Failed), s)
    ensures session.Some? && id in s.appointments.entries ==>
      && r.body.Ok?
      && r.body.value.status == status && r.body.value.tokenNumber == tokenNumber
      && Get(r.store.appointments, id) == Some(r.body.value)
      && r.store == UpdateAppointment(s, id, AppointmentBodyPatch(status, tokenNumber)).store
  {
    match session
    case None => Response(Err(Unauthenticated), s)
    case Some(_) =>
      var step := UpdateAppointment(s, id, AppointmentBodyPatch(status, tokenNumber));
      match step.result
      case Err(_) => Response(Err(Failed), s)
      case Ok(a) => Response(Ok(a), step.store)
  }

  /** POST /api/doctors: admins only. */
  function PostDoctors(s: Store, session: Session, body: InsertDoctor): (r: Response<DoctorRecord>)
    ensures r.body.Ok? <==> HasRole(session, Admin)
    ensures r.body.Err? ==> r == Response(Err(Forbidden), s)
    ensures r.body.Ok? ==> DoctorColumns(r.body.value) == body && r.store == CreateDoctor(s, body).1
    ensures r.body.Ok? ==> r.body.value == CreateDoctor(s, body).0 && Get(r.store.doctors, s.currentId) == Some(r.body.value)
  {
    if !HasRole(session, Admin) then Response(Err(Forbidden), s)
    else
      var (d, s') := CreateDoctor(s, body);
      Response(Ok(d), s')
  }

  /** POST /api/prescriptions: doctors only; the prescription's doctorId is
      the caller's USER id, not the caller's doctor-record id. */
  function PostPrescriptions(s: Store, session: Session, body: InsertPrescription, now: Time): (r: Response<Prescription>)
    ensures r.body.Ok? <==> HasRole(session, Doctor)
    ensures r.body.Err? ==> r == Response(Err(Forbidden), s)
    ensures r.body.Ok? ==>
      && r.body.value.doctorId == session.value.id
      && PrescriptionColumns(r.body.value) == body.(doctorId := session.value.id)
      && r.body.value == CreatePrescription(s, body.(doctorId := session.value.id), now).0
      && r.store == CreatePrescription(s, body.(doctorId := session.value.id), now).1
  {
    if !HasRole(session, Doctor) then Response(Err(Forbidden), s)
    else
      var (p, s') := CreatePrescription(s, body.(doctorId := session.value.id), now);
      Response(Ok(p), s')
  }

  /** POST /api/lab-tests: doctors only; doctorId is the caller's user id and
      the stored status is "requested" (the body's status key is dropped). */
  function PostLabTests(s: Store, session: Session, body: InsertLabTest, now: Time): (r: Response<LabTest>)
    ensures r.body.Ok? <==> HasRole(session, Doctor)
    ensures r.body.Err? ==> r == Response(Err(Forbidden), s)
    ensures r.body.Ok? ==>
      && r.body.value.doctorId == session.value.id
      && r.body.value.status == Present(Requested)
      && r.body.value.completedAt == Null
      && r.body.value == CreateLabTest(s, body.(doctorId := session.value.id), now).0
      && r.store == CreateLabTest(s, body.(doctorId := session.value.id), now).1
  {
    if !HasRole(session, Doctor) then Response(Err(Forbidden), s)
    else
      var (t, s') := CreateLabTest(s, body.(doctorId := session.value.id), now);
      Response(Ok(t), s')
  }

  /** The patch PATCH /api/lab-tests/:id builds: status and remarks from the
      body, the caller as lab assistant, and `completedAt` set to now when the
      status is "completed" and to undefined otherwise. */
  function LabTestBodyPatch(status: Field<LabStatus>, remarks: Field<string>, callerId: int, now: Time): (p: LabTestPatch)
    ensures forall t :: MergeLabTest(t, p).status == status && MergeLabTest(t, p).remarks == remarks
    ensures forall t :: MergeLabTest(t, p).labAssistantId == Present(callerId)
    ensures forall t :: MergeLabTest(t, p).reportUrl == t.reportUrl
    ensures forall t :: MergeLabTest(t, p).completedAt.Present? <==> status == Present(LabStatus.Completed)
    ensures forall t :: MergeLabTest(t, p).completedAt.Present? ==> MergeLabTest(t, p).completedAt.value == now
  {
    LabTestPatch(
      Some(status),
      Some(remarks),
      Some(if status == Present(LabStatus.Completed) then Present(now) else Undefined),
      Some(Present(callerId)),
      None)
  }

  /** PATCH /api/lab-tests/:id: lab assistants only. */
  function PatchLabTest(s: Store, session: Session, id: int, status: Field<LabStatus>, remarks: Field<string>,
                        now: Time): (r: Response<LabTest>)
    ensures !HasRole(session, Lab) ==> r == Response(Err(Forbidden), s)
    ensures HasRole(session, Lab) && id !in s.labTests.entries ==> r == Response(Err(Failed), s)
    ensures HasRole(session, Lab) && id in s.labTests.entries ==>
      && r.body.Ok?
      && r.body.value.status == status && r.body.value.remarks == remarks
      && r.body.value.labAssistantId == Present(session.value.id)
      && (status == Present(LabStatus.Completed) ==> r.body.value.completedAt == Present(now))
      && (status != Present(LabStatus.Completed) ==> r.body.value.completedAt == Undefined)
      && r.body.value.reportUrl == s.labTests.entries[id].reportUrl
      && Get(r.store.labTests, id) == Some(r.body.value)
      && r.store == UpdateLabTest(s, id, LabTestBodyPatch(status, remarks, session.value.id, now)).store
  {
    if !HasRole(session, Lab) then Response(Err(Forbidden), s)
    else
      var step := UpdateLabTest(s, id, LabTestBodyPatch(status, remarks, session.value.id, now));
      match step.result
      case Err(_) => Response(Err(Failed), s)
      case Ok(t) => Response(Ok(t), step.store)
  }

  /** The file the upload middleware hands over: its stored name and the
      MIME type the client declared. */
  datatype UploadedFile = UploadedFile(filename: string, mimetype: string)

  /** The upload filter's allow-list. */
  const AllowedTypes: seq<string> := ["application/pdf", "image/jpeg", "image/png", "image/jpg"]

  predicate AcceptsType(mimetype: string) {
    mimetype in AllowedTypes
  }

  /** The one patch a report upload applies: report location, completed,
      stamped now, by the caller. */
  function UploadPatch(filename: string, callerId: int, now: Time): (p: LabTestPatch)
    ensures forall t :: MergeLabTest(t, p).status == Present(LabStatus.Completed)
    ensures forall t :: MergeLabTest(t, p).completedAt == Present(now)
    ensures forall t :: MergeLabTest(t, p).labAssistantId == Present(callerId)
    ensures forall t :: MergeLabTest(t, p).reportUrl == Present("/uploads/" + filename)
    ensures forall t :: MergeLabTest(t, p).remarks == t.remarks
  {
    LabTestPatch(Some(Present(LabStatus.Completed)), None, Some(Present(now)), Some(Present(callerId)),
                 Some(Present("/uploads/" + filename)))
  }

  /** POST /api/lab-tests/:id/upload. The type filter runs first, for any
      caller; then lab assistants only; then a file is required; then one
      update completes the test. */
  function PostLabTestUpload(s: Store, session: Session, id: int, file: Option<UploadedFile>, now: Time): (r: Response<LabTest>)
    ensures file.Some? && !AcceptsType(file.value.mimetype) ==> r == Response(Err(Rejected), s)
    ensures (file.None? || AcceptsType(file.value.mimetype)) && !HasRole(session, Lab)
      ==> r == Response(Err(Forbidden), s)
    ensures HasRole(session, Lab) && file.None? ==> r == Response(Err(Failed), s)
    ensures HasRole(session, Lab) && file.Some? && AcceptsType(file.value.mimetype) && id !in s.labTests.entries
      ==> r == Response(Err(Failed), s)
    ensures r.body.Ok? ==>
      && HasRole(session, Lab) && file.Some? && AcceptsType(file.value.mimetype)
      && id in s.labTests.entries
      && r.body.value.status == Present(LabStatus.Completed)
      && r.body.value.reportUrl == Present("/uploads/" + file.value.filename)
      && r.body.value.completedAt == Present(now)
      && r.body.value.labAssistantId == Present(session.value.id)
      && Get(r.store.labTests, id) == Some(r.body.value)
    ensures HasRole(session, Lab) && file.Some? && AcceptsType(file.value.mimetype) && id in s.labTests.entries
      ==> r.body.Ok?
    ensures r.body.Err? ==> r.store == s
    ensures r.body.Ok? ==> r.store == UpdateLabTest(s, id, UploadPatch(file.value.filename, session.value.id, now)).store
  {
    if file.Some? && !AcceptsType(file.value.mimetype) then Response(Err(Rejected), s)
    else if !HasRole(session, Lab) then Response(Err(Forbidden), s)
    else if file.None? then Response(Err(Failed), s)
    else
      var step := UpdateLabTest(s, id, UploadPatch(file.value.filename, session.value.id, now));
      match step.result
      case Err(_) => Response(Err(Failed), s)
      case Ok(t) => Response(Ok(t), step.store)
  }

  /** POST /api/token-queue/assign: admins only. A missing appointment fails
      the request yet keeps the store the token assignment left. */
  function PostTokenAssign(s: Store, session: Session, appointmentId: int, now: Time, dayStart: Time): (r: Response<TokenEntry>)
    ensures !HasRole(session, Admin) ==> r == Response(Err(Forbidden), s)
    ensures HasRole(session, Admin) ==>
      && r.store == AssignToken(s, appointmentId, now, dayStart).store
      && (r.body.Ok? <==> appointmentId in s.appointments.entries)
      && (r.body.Err? ==> r.body.error == Failed)
      && (r.body.Ok? ==> r.body.value == AssignToken(s, appointmentId, now, dayStart).store.tokenQueue.entries[s.currentId])
  {
    if !HasRole(session, Admin) then Response(Err(Forbidden), s)
    else
      var step := AssignToken(s, appointmentId, now, dayStart);
      match step.result
      case Err(_) => Response(Err(Failed), step.store)
      case Ok(t) => Response(Ok(t), step.store)
  }
}

=== FILE: sample_data.dfy ===
/** The seeding run the store's constructor starts: four users in a fixed
    order, and a doctor record right after the doctor user. */
module SampleData {
  import opened JsValues
  import opened JsArrays
  import opened JsMaps
  import opened Schema
  import opened Storage
  import opened StoreInvariants

  const SampleUsers: seq<InsertUser> := [
    InsertUser("patient1", "password", "patient@example.com", Patient, "John", "Doe", Present("123-456-7890")),
    InsertUser("doctor1", "password", "doctor@example.com", Doctor, "Dr. Sarah", "Wilson", Present("123-456-7891")),
    InsertUser("admin1", "password", "admin@example.com", Admin, "Admin", "User", Present("123-456-7892")),
    InsertUser("lab1", "password", "lab@example.com", Lab, "Lab", "Assistant", Present("123-456-7893"))
  ]

  /** The doctor profile seeded for a doctor user. */
  function SampleDoctor(userId: int): InsertDoctor {
    InsertDoctor(userId, "Cardiology", "Cardiology", Present("DOC123"), Present(5))
  }

  function IsDoctorPayload(u: InsertUser): bool {
    u.role == Doctor
  }

  /** One turn of the seeding loop: create the user, then its doctor record
      when the new user is a doctor. */
  function SeedOne(s: Store, u: InsertUser, now: Time): Store {
    var (user, s1) := CreateUser(s, u, now);
    if user.role == Doctor then CreateDoctor(s1, SampleDoctor(user.id)).1 else s1
  }

  /** The seeding loop over `users`, in order. It takes one id per user and
      one more per doctor user. */
  function Seed(s: Store, users: seq<InsertUser>, now: Time): (r: Store)
    ensures r.currentId == s.currentId + |users| + |Filter(users, IsDoctorPayload)|
    decreases |users|
  {
    if |users| == 0 then s
    else
      FilterCons(users[0], users[1..], IsDoctorPayload);
      assert users == [users[0]] + users[1..];
      Seed(SeedOne(s, users[0], now), users[1..], now)
  }

  /** The store the constructor leaves once seeding has finished. */
  function InitialStore(now: Time): Store {
    Seed(EmptyStore(), SampleUsers, now)
  }

  lemma SeedOneInv(s: Store, u: InsertUser, now: Time)
    requires Inv(s)
    ensures Inv(SeedOne(s, u, now))
  {
    var (user, s1) := CreateUser(s, u, now);
    CreateUserInv(s, u, now);
    if user.role == Doctor {
      CreateDoctorInv(s1, SampleDoctor(user.id));
    }
  }

  /** Seeding keeps the store invariant. */
  lemma {:induction false} SeedInv(s: Store, users: seq<InsertUser>, now: Time)
    requires Inv(s)
    ensures Inv(Seed(s, users, now))
    decreases |users|
  {
    if |users| > 0 {
      SeedOneInv(s, users[0], now);
      SeedInv(SeedOne(s, users[0], now), users[1..], now);
    }
  }

  // ---- The four turns of the seeding run, one at a time ----

  function AfterPatient(now: Time): Store { SeedOne(EmptyStore(), SampleUsers[0], now) }
  function AfterDoctor(now: Time): Store { SeedOne(AfterPatient(now), SampleUsers[1], now) }
  function AfterAdmin(now: Time): Store { SeedOne(AfterDoctor(now), SampleUsers[2], now) }

  lemma SeedUnrolled(now: Time)
    ensures InitialStore(now) == AfterLab(now)
  {
    var us := SampleUsers;
    assert us[1..][1..][1..][1..] == [];
  }

  lemma AfterPatientFacts(now: Time)
    ensures var s := AfterPatient(now);
      && s.currentId == 2
      && Values(s.users) == [User(1, "patient1", "password", "patient@example.com", Patient, "John", "Doe", Present("123-456-7890"), now)]
      && s.doctors == EmptyStore().doctors
  {
    var s0 := EmptyStore();
    var (u1, s1) := CreateUser(s0, SampleUsers[0], now);
    ValuesSetFresh(s0.users, 1, u1);
  }

  lemma AfterDoctorFacts(now: Time)
    ensures var s := AfterDoctor(now);
      && s.currentId == 4
      && Values(s.users) == Values(AfterPatient(now).users)
           + [User(2, "doctor1", "password", "doctor@example.com", Doctor, "Dr. Sarah", "Wilson", Present("123-456-7891"), now)]
      && Values(s.doctors) == [DoctorRecord(3, 2, "Cardiology", "Cardiology", Present("DOC123"), Present(5), true)]
  {
    var s1 := AfterPatient(now);
    AfterPatientFacts(now);
    var (u2, s2a) := CreateUser(s1, SampleUsers[1], now);
    var (d3, s2) := CreateDoctor(s2a, SampleDoctor(2));
    ValuesSetFresh(s1.users, 2, u2);
    ValuesSetFresh(s2a.doctors, 3, d3);
  }

  lemma AfterAdminFacts(now: Time)
    ensures var s := AfterAdmin(now);
      && s.currentId == 5
      && Values(s.users) == Values(AfterDoctor(now).users)
           + [User(4, "admin1", "password", "admin@example.com", Admin, "Admin", "User", Present("123-456-7892"), now)]
      && s.doctors == AfterDoctor(now).doctors
  {
    var s2 := AfterDoctor(now);
    AfterDoctorFacts(now);
    var (u4, s3) := CreateUser(s2, SampleUsers[2], now);
    ValuesSetFresh(s2.users, 4, u4);
  }

  function AfterLab(now: Time): Store { SeedOne(AfterAdmin(now), SampleUsers[3], now) }

  lemma AfterLabFacts(now: Time)
    ensures var s := AfterLab(now);
      && s.currentId == 6
      && Values(s.users) == Values(AfterAdmin(now).users)
           + [User(5, "lab1", "password", "lab@example.com", Lab, "Lab", "Assistant", Present("123-456-7893"), now)]
      && s.doctors == AfterDoctor(now).doctors
  {
    var s3 := AfterAdmin(now);
    AfterAdminFacts(now);
    var (u5, s4) := CreateUser(s3, SampleUsers[3], now);
    ValuesSetFresh(s3.users, 5, u5);
  }

  /** Seeding stores no appointment, prescription, lab test or token. */
  lemma {:induction false} SeedStoresNoActivity(s: Store, users: seq<InsertUser>, now: Time)
    ensures var r := Seed(s, users, now);
      && r.appointments == s.appointments && r.prescriptions == s.prescriptions
      && r.labTests == s.labTests && r.tokenQueue == s.tokenQueue
    decreases |users|
  {
    if |users| > 0 {
      SeedStoresNoActivity(SeedOne(s, users[0], now), users[1..], now);
    }
  }

  /** The doctor user's record is found under user id 2 and has id 3. */
  lemma SeededDoctorLookup(now: Time)
    ensures DoctorRecordId(AfterLab(now), 2) == Some(3)
  {
    AfterDoctorFacts(now);
    AfterLabFacts(now);
    var d3 := DoctorRecord(3, 2, "Cardiology", "Cardiology", Present("DOC123"), Present(5), true);
    assert Values(AfterLab(now).doctors) == [d3];
    assert [d3][..0] == [];
  }

  /** The four seeded users, in insertion order, with ids 1, 2, 4 and 5. */
  lemma SeededUsers(now: Time)
    ensures var vs := Values(AfterLab(now).users);
      && |vs| == 4
      && vs[0] == User(1, "patient1", "password", "patient@example.com", Patient, "John", "Doe", Present("123-456-7890"), now)
      && vs[1] == User(2, "doctor1", "password", "doctor@example.com", Doctor, "Dr. Sarah", "Wilson", Present("123-456-7891"), now)
      && vs[2] == User(4, "admin1", "password", "admin@example.com", Admin, "Admin", "User", Present("123-456-7892"), now)
      && vs[3] == User(5, "lab1", "password", "lab@example.com", Lab, "Lab", "Assistant", Present("123-456-7893"), now)
  {
    AfterPatientFacts(now);
    AfterDoctorFacts(now);
    AfterAdminFacts(now);
    AfterLabFacts(now);
    var v1 := Values(AfterPatient(now).users);
    var v2 := Values(AfterDoctor(now).users);
    var v3 := Values(AfterAdmin(now).users);
    var vs := Values(AfterLab(now).users);
    assert |v1| == 1 && |v2| == 2 && |v3| == 3 && |vs| == 4;
    assert vs[..3] == v3 && v3[..2] == v2 && v2[..1] == v1;
  }

  /** The seeded ids: patient 1, doctor user 2, doctor record 3 (owned by
      user 2), admin 4, lab assistant 5; the next id is 6, and nothing else
      is stored. The doctor's record id is therefore not its user id. */
  lemma SampleDataIds(now: Time)
    ensures var s := InitialStore(now);
      && s.currentId == 6
      && |Values(s.users)| == 4
      && Values(s.users)[0].id == 1 && Values(s.users)[0].role == Patient
      && Values(s.users)[1].id == 2 && Values(s.users)[1].role == Doctor
      && Values(s.users)[2].id == 4 && Values(s.users)[2].role == Admin
      && Values(s.users)[3].id == 5 && Values(s.users)[3].role == Lab
      && Values(s.doctors) == [DoctorRecord(3, 2, "Cardiology", "Cardiology", Present("DOC123"), Present(5), true)]
      && DoctorRecordId(s, 2) == Some(3)
      && Size(s.appointments) == 0 && Size(s.prescriptions) == 0
      && Size(s.labTests) == 0 && Size(s.tokenQueue) == 0
  {
    SeedUnrolled(now);
    AfterDoctorFacts(now);
    AfterLabFacts(now);
    SeededUsers(now);
    SeededDoctorLookup(now);
    SeedStoresNoActivity(EmptyStore(), SampleUsers, now);
  }

  /** The seeded store satisfies the store invariant. */
  lemma InitialStoreInv(now: Time)
    ensures Inv(InitialStore(now))
  {
    EmptyStoreInv();
    SeedInv(EmptyStore(), SampleUsers, now);
  }
}

=== FILE: scenarios.dfy ===
/** Concrete request sequences from the seeded store, with every id and
    field the store hands back. */
module Scenarios {
  import opened JsValues
  import opened JsArrays
  import opened JsMaps
  import opened Schema
  import opened Storage
  import opened StoreInvariants
  import opened Routes
  import opened SampleData

  /** Booking into a store with no appointments: the new appointment takes
      id 6 and is the only one stored. */
  lemma BookIntoEmptyCalendar(s: Store, now: Time)
    requires s.currentId == 6 && Size(s.appointments) == 0
    ensures var booked := PostAppointments(s, Some(Caller(1, Patient)), InsertAppointment(1, 3, now, Present("Chest pain")), now);
      var a := Appointment(6, 1, 3, now, Present(Scheduled), Present("Chest pain"), Null, now);
      && booked.body == Ok(a)
      && booked.store == s.(appointments := booked.store.appointments, currentId := 7)
      && booked.store.appointments.keys == [6] && booked.store.appointments.entries[6] == a
  {
    var booked := PostAppointments(s, Some(Caller(1, Patient)), InsertAppointment(1, 3, now, Present("Chest pain")), now);
    assert s.appointments.keys == [];
    ValuesSetFresh(s.appointments, 6, booked.body.value);
  }

  /** An admin issues a token for the only appointment on a day with an
      empty queue: token 1, id 7, wait 15, and the appointment is confirmed
      with that number. */
  lemma IssueFirstToken(b: Store, a: Appointment, now: Time, dayStart: Time)
    requires b.currentId == 7 && b.appointments.keys == [6] && b.appointments.entries[6] == a
    requires Size(b.tokenQueue) == 0 && InDay(now, dayStart)
    ensures var issued := PostTokenAssign(b, Some(Caller(4, Admin)), 6, now, dayStart);
      && issued.body == Ok(TokenEntry(7, 6, 1, now, Waiting, 15))
      && Values(issued.store.appointments) == [a.(status := Present(Confirmed), tokenNumber := Present(1))]
      && issued.store.doctors == b.doctors
  {
    assert b.tokenQueue.keys == [];
    assert Values(b.tokenQueue) == [];
    var confirmed := a.(status := Present(Confirmed), tokenNumber := Present(1));
    ValuesSetExisting(b.appointments, 6, confirmed, 0);
  }

  /** A store whose only appointment is dated today has exactly that
      appointment in today's list. */
  lemma OnlyAppointmentIsToday(s: Store, a: Appointment, dayStart: Time)
    requires Values(s.appointments) == [a] && InDay(a.appointmentDate, dayStart)
    ensures TodayAppointments(s, dayStart) == [a]
  {
    FilterSnoc([], a, (x: Appointment) => InDay(x.appointmentDate, dayStart));
    assert [] + [a] == [a];
  }

  /** With one confirmed appointment on today's list the admin sees one visit, 50 of
      revenue and nothing awaiting approval. */
  lemma AdminStatsOneConfirmed(s: Store, a: Appointment, dayStart: Time)
    requires TodayAppointments(s, dayStart) == [a] && a.status == Present(Confirmed)
    ensures GetDashboardStats(s, Some(Caller(4, Admin)), dayStart) == Ok(AdminStats(Size(s.doctors), 1, 50, 0))
  {
    FilterSnoc([], a, (x: Appointment) => AppointmentHasStatus(x, Scheduled));
    assert [] + [a] == [a];
  }

  /** The patient books with the seeded doctor record; an admin then issues
      the visit token. Stated for any store that, like the seeded one, holds
      no appointment and no token and will hand out id 6 next. */
  lemma BookThenIssueToken(s: Store, now: Time, dayStart: Time)
    requires InDay(now, dayStart)
    requires s.currentId == 6 && Size(s.appointments) == 0 && Size(s.tokenQueue) == 0
    ensures var booked := PostAppointments(s, Some(Caller(1, Patient)), InsertAppointment(1, 3, now, Present("Chest pain")), now);
      var issued := PostTokenAssign(booked.store, Some(Caller(4, Admin)), 6, now, dayStart);
      && booked.body == Ok(Appointment(6, 1, 3, now, Present(Scheduled), Present("Chest pain"), Null, now))
      && issued.body == Ok(TokenEntry(7, 6, 1, now, Waiting, 15))
      && Values(issued.store.appointments)
           == [Appointment(6, 1, 3, now, Present(Confirmed), Present("Chest pain"), Present(1), now)]
      && GetDashboardStats(issued.store, Some(Caller(4, Admin)), dayStart)
           == Ok(AdminStats(Size(s.doctors), 1, 50, 0))
  {
    var booked := PostAppointments(s, Some(Caller(1, Patient)), InsertAppointment(1, 3, now, Present("Chest pain")), now);
    var a := Appointment(6, 1, 3, now, Present(Scheduled), Present("Chest pain"), Null, now);
    BookIntoEmptyCalendar(s, now);
    IssueFirstToken(booked.store, a, now, dayStart);
    var issued := PostTokenAssign(booked.store, Some(Caller(4, Admin)), 6, now, dayStart);
    var confirmed := a.(status := Present(Confirmed), tokenNumber := Present(1));
    OnlyAppointmentIsToday(issued.store, confirmed, dayStart);
    AdminStatsOneConfirmed(issued.store, confirmed, dayStart);
  }

  /** A lab assistant uploads a PDF report for a stored test: the test is
      completed, stamped with the time and the assistant, and linked to the
      file under /uploads/. */
  lemma UploadPdfReport(s: Store, id: int, t: LabTest, now: Time)
    requires id in s.labTests.entries && s.labTests.entries[id] == t
    ensures var uploaded := PostLabTestUpload(s, Some(Caller(5, Lab)), id,
                                              Some(UploadedFile("report-1.pdf", "application/pdf")), now);
      var done := t.(status := Present(LabStatus.Completed), completedAt := Present(now),
                     labAssistantId := Present(5), reportUrl := Present("/uploads/report-1.pdf"));
      && uploaded.body == Ok(done)
      && Get(uploaded.store.labTests, id) == Some(done)
  {
    assert AllowedTypes[0] == "application/pdf";
    assert "/uploads/" + "report-1.pdf" == "/uploads/report-1.pdf";
  }

  /** The seeded doctor requests an urgent test with no appointment link;
      the lab assistant then uploads a PDF report. */
  lemma RequestThenUploadReport(s: Store, t1: Time, t2: Time)
    ensures var requested := PostLabTests(s, Some(Caller(2, Doctor)), InsertLabTest(Null, 2, 1, "Blood panel", Urgent), t1);
      var id := s.currentId;
      var uploaded := PostLabTestUpload(requested.store, Some(Caller(5, Lab)), id,
                                        Some(UploadedFile("report-1.pdf", "application/pdf")), t2);
      && requested.body == Ok(LabTest(id, Null, 2, 1, "Blood panel", Urgent, Present(Requested), t1, Null, Null, Null, Null))
      && uploaded.body == Ok(LabTest(id, Null, 2, 1, "Blood panel", Urgent, Present(LabStatus.Completed), t1,
                                     Present(t2), Present(5), Present("/uploads/report-1.pdf"), Null))
      && Get(uploaded.store.labTests, id) == Some(uploaded.body.value)
  {
    var requested := PostLabTests(s, Some(Caller(2, Doctor)), InsertLabTest(Null, 2, 1, "Blood panel", Urgent), t1);
    var id := s.currentId;
    var t := LabTest(id, Null, 2, 1, "Blood panel", Urgent, Present(Requested), t1, Null, Null, Null, Null);
    assert requested.body == Ok(t);
    UploadPdfReport(requested.store, id, t, t2);
  }

  /** A report of a type outside the allow-list is turned away before the
      role check, whoever sends it, and nothing is stored. */
  lemma TextReportIsRejected(s: Store, session: Session, id: int, now: Time)
    ensures PostLabTestUpload(s, session, id, Some(UploadedFile("notes.txt", "text/plain")), now)
              == Response(Err(Rejected), s)
  {
  }

  /** Updating an appointment id that was never handed out fails and changes
      nothing, at the store and at the route. */
  lemma UpdateOfUnknownIdFails(s: Store, c: Caller, status: Field<AppointmentStatus>)
    requires Inv(s) && s.currentId <= 999999
    ensures UpdateAppointment(s, 999999, AppointmentPatch(Some(status), None)) == Step(Err(AppointmentNotFound), s)
    ensures PatchAppointment(s, Some(c), 999999, status, Undefined) == Response(Err(Failed), s)
  {
    assert 999999 !in s.appointments.entries;
  }

  /** The booking scenario and the failed update, run from the seeded store. */
  lemma SeededBooking(now: Time, dayStart: Time)
    requires InDay(now, dayStart)
    ensures var s := InitialStore(now);
      var booked := PostAppointments(s, Some(Caller(1, Patient)), InsertAppointment(1, 3, now, Present("Chest pain")), now);
      var issued := PostTokenAssign(booked.store, Some(Caller(4, Admin)), 6, now, dayStart);
      && booked.body.Ok? && booked.body.value.id == 6
      && issued.body == Ok(TokenEntry(7, 6, 1, now, Waiting, 15))
      && GetDashboardStats(issued.store, Some(Caller(4, Admin)), dayStart) == Ok(AdminStats(1, 1, 50, 0))
      && PatchAppointment(s, Some(Caller(4, Admin)), 999999, Present(Confirmed), Undefined) == Response(Err(Failed), s)
  {
    var s := InitialStore(now);
    SampleDataIds(now);
    InitialStoreInv(now);
    BookThenIssueToken(s, now, dayStart);
    UpdateOfUnknownIdFails(s, Caller(4, Admin), Present(Confirmed));
  }

  /** The lab scenario, run from the seeded store. */
  lemma SeededLabRequest(now: Time, later: Time)
    ensures var s := InitialStore(now);
      var requested := PostLabTests(s, Some(Caller(2, Doctor)), InsertLabTest(Null, 2, 1, "Blood panel", Urgent), now);
      var uploaded := PostLabTestUpload(requested.store, Some(Caller(5, Lab)), 6,
                                        Some(UploadedFile("report-1.pdf", "application/pdf")), later);
      && requested.body.Ok? && requested.body.value.id == 6
      && uploaded.body.Ok? && uploaded.body.value.labAssistantId == Present(5)
      && uploaded.body.value.completedAt == Present(later)
  {
    SampleDataIds(now);
    RequestThenUploadReport(InitialStore(now), now, later);
  }
}

=== FILE: schema.dfy ===
/** Record shapes of the clinic tables and the payloads each insert schema
    admits. Columns declared without NOT NULL are `Field`s; columns the store
    always fills (timestamps, ids) are plain values. Roles, statuses and
    priorities are free text in the tables; here they are closed datatypes
    with a catch-all case for any other text. */
module Schema {
  import opened JsValues

  /** Milliseconds since the epoch. */
  type Time = int

  /** Opaque text the store never inspects (passwords, the medications JSON). */
  type Opaque = string

  datatype Role = Patient | Doctor | Admin | Lab | Other

  datatype AppointmentStatus = Scheduled | Confirmed | Completed | Cancelled | Other

  datatype LabStatus = Requested | InProgress | Completed | Other

  datatype Priority = Normal | Urgent | Emergency | Other

  datatype TokenStatus = Waiting | Called | Completed

  /** The text each role is stored under. */
  function RoleName(r: Role): Option<string> {
    match r
    case Patient => Some("patient")
    case Doctor => Some("doctor")
    case Admin => Some("admin")
    case Lab => Some("lab")
    case Other => None
  }

  /** How the store's `switch (role)` reads a role text: one of the four
      named roles, or the catch-all that falls into `default`. */
  function ParseRole(text: string): (r: Role)
    ensures r != Role.Other ==> RoleName(r) == Some(text)
  {
    if text == "patient" then Patient
    else if text == "doctor" then Doctor
    else if text == "admin" then Admin
    else if text == "lab" then Lab
    else Role.Other
  }

  /** Naming a role and reading the name back gives the same role. */
  lemma ParseRoleName(r: Role)
    requires r != Role.Other
    ensures ParseRole(RoleName(r).value) == r
  {
  }

  function AppointmentStatusName(s: AppointmentStatus): Option<string> {
    match s
    case Scheduled => Some("scheduled")
    case Confirmed => Some("confirmed")
    case Completed => Some("completed")
    case Cancelled => Some("cancelled")
    case Other => None
  }

  function ParseAppointmentStatus(text: string): (s: AppointmentStatus)
    ensures s != AppointmentStatus.Other ==> AppointmentStatusName(s) == Some(text)
  {
    if text == "scheduled" then Scheduled
    else if text == "confirmed" then Confirmed
    else if text == "completed" then AppointmentStatus.Completed
    else if text == "cancelled" then Cancelled
    else AppointmentStatus.Other
  }

  /** Each named appointment status reads back from its stored text. */
  lemma ParseAppointmentStatusName(st: AppointmentStatus)
    requires st != AppointmentStatus.Other
    ensures ParseAppointmentStatus(AppointmentStatusName(st).value) == st
  {
  }

  function LabStatusName(s: LabStatus): Option<string> {
    match s
    case Requested => Some("requested")
    case InProgress => Some("in_progress")
    case Completed => Some("completed")
    case Other => None
  }

  function ParseLabStatus(text: string): (s: LabStatus)
    ensures s != LabStatus.Other ==> LabStatusName(s) == Some(text)
  {
    if text == "requested" then Requested
    else if text == "in_progress" then InProgress
    else if text == "completed" then LabStatus.Completed
    else LabStatus.Other
  }

  /** Each named lab-test status reads back from its stored text. */
  lemma ParseLabStatusName(st: LabStatus)
    requires st != LabStatus.Other
    ensures ParseLabStatus(LabStatusName(st).value) == st
  {
  }

  // ---- Stored records (the selected row types) ----

  datatype User = User(
    id: int,
    username: string,
    password: Opaque,
    email: string,
    role: Role,
    firstName: string,
    lastName: string,
    phone: Field<string>,
    createdAt: Time)

  /** A doctor profile; `id` is its own record id, `userId` the owning user. */
  datatype DoctorRecord = DoctorRecord(
    id: int,
    userId: int,
    specialty: string,
    department: string,
    licenseNumber: Field<string>,
    experience: Field<int>,
    isActive: bool)

  datatype Appointment = Appointment(
    id: int,
    patientId: int,
    doctorId: int,
    appointmentDate: Time,
    status: Field<AppointmentStatus>,
    reason: Field<string>,
    tokenNumber: Field<int>,
    createdAt: Time)

  datatype Prescription = Prescription(
    id: int,
    appointmentId: int,
    doctorId: int,
    patientId: int,
    diagnosis: string,
    medications: Opaque,
    instructions: Field<string>,
    createdAt: Time)

  /** A lab test; `appointmentId` is the one optional link among its keys. */
  datatype LabTest = LabTest(
    id: int,
    appointmentId: Field<int>,
    doctorId: int,
    patientId: int,
    testType: string,
    priority: Priority,
    status: Field<LabStatus>,
    requestedAt: Time,
    completedAt: Field<Time>,
    labAssistantId: Field<int>,
    reportUrl: Field<string>,
    remarks: Field<string>)

  /** A visit token; unlike an appointment's, its `tokenNumber` is required. */
  datatype TokenEntry = TokenEntry(
    id: int,
    appointmentId: int,
    tokenNumber: int,
    queueDate: Time,
    status: TokenStatus,
    estimatedTime: int)

  // ---- Insert payloads: exactly the columns each insert schema picks ----

  datatype InsertUser = InsertUser(
    username: string,
    password: Opaque,
    email: string,
    role: Role,
    firstName: string,
    lastName: string,
    phone: Field<string>)

  datatype InsertDoctor = InsertDoctor(
    userId: int,
    specialty: string,
    department: string,
    licenseNumber: Field<string>,
    experience: Field<int>)

  /** No id, status, token number or creation time: the store assigns those. */
  datatype InsertAppointment = InsertAppointment(
    patientId: int,
    doctorId: int,
    appointmentDate: Time,
    reason: Field<string>)

  datatype InsertPrescription = InsertPrescription(
    appointmentId: int,
    doctorId: int,
    patientId: int,
    diagnosis: string,
    medications: Opaque,
    instructions: Field<string>)

  /** No status or completion fields: the store assigns those. */
  datatype InsertLabTest = InsertLabTest(
    appointmentId: Field<int>,
    doctorId: int,
    patientId: int,
    testType: string,
    priority: Priority)

  // ---- The columns of a stored row that its insert schema picks ----

  function UserColumns(u: User): InsertUser {
    InsertUser(u.username, u.password, u.email, u.role, u.firstName, u.lastName, u.phone)
  }

  function DoctorColumns(d: DoctorRecord): InsertDoctor {
    InsertDoctor(d.userId, d.specialty, d.department, d.licenseNumber, d.experience)
  }

  function AppointmentColumns(a: Appointment): InsertAppointment {
    InsertAppointment(a.patientId, a.doctorId, a.appointmentDate, a.reason)
  }

  function PrescriptionColumns(p: Prescription): InsertPrescription {
    InsertPrescription(p.appointmentId, p.doctorId, p.patientId, p.diagnosis, p.medications, p.instructions)
  }

  function LabTestColumns(t: LabTest): InsertLabTest {
    InsertLabTest(t.appointmentId, t.doctorId, t.patientId, t.testType, t.priority)
  }

  // ---- Partial updates ----

  /** A `Partial<Appointment>` over the keys callers pass. For each key,
      `None` means the object lacks the key and `Some(f)` means it holds f,
      possibly `Undefined`. */
  datatype AppointmentPatch = AppointmentPatch(
    status: Option<Field<AppointmentStatus>>,
    tokenNumber: Option<Field<int>>)

  /** A `Partial<LabTest>` over the keys callers pass, read as above. */
  datatype LabTestPatch = LabTestPatch(
    status: Option<Field<LabStatus>>,
    remarks: Option<Field<string>>,
    completedAt: Option<Field<Time>>,
    labAssistantId: Option<Field<int>>,
    reportUrl: Option<Field<string>>)

  /** `{...appointment, ...patch}`. */
  function MergeAppointment(a: Appointment, p: AppointmentPatch): Appointment {
    a.(status := Spread(a.status, p.status), tokenNumber := Spread(a.tokenNumber, p.tokenNumber))
  }

  /** `{...labTest, ...patch}`. */
  function MergeLabTest(t: LabTest, p: LabTestPatch): LabTest {
    t.(status := Spread(t.status, p.status),
       remarks := Spread(t.remarks, p.remarks),
       completedAt := Spread(t.completedAt, p.completedAt),
       labAssistantId := Spread(t.labAssistantId, p.labAssistantId),
       reportUrl := Spread(t.reportUrl, p.reportUrl))
  }

  /** A shallow merge keeps every key the patch lacks, takes every key the
      patch has (an undefined value included), and never touches the
      record's identity, parties, date or creation time. */
  lemma MergeAppointmentFrame(a: Appointment, p: AppointmentPatch)
    ensures var m := MergeAppointment(a, p);
      && m.id == a.id && m.patientId == a.patientId && m.doctorId == a.doctorId
      && m.appointmentDate == a.appointmentDate && m.reason == a.reason && m.createdAt == a.createdAt
      && (p.status.None? ==> m.status == a.status)
      && (p.status.Some? ==> m.status == p.status.value)
      && (p.tokenNumber.None? ==> m.tokenNumber == a.tokenNumber)
      && (p.tokenNumber.Some? ==> m.tokenNumber == p.tokenNumber.value)
  {
  }

  /** The same frame property for lab tests. */
  lemma MergeLabTestFrame(t: LabTest, p: LabTestPatch)
    ensures var m := MergeLabTest(t, p);
      && m.id == t.id && m.appointmentId == t.appointmentId && m.doctorId == t.doctorId
      && m.patientId == t.patientId && m.testType == t.testType && m.priority == t.priority
      && m.requestedAt == t.requestedAt
      && (p.status.None? ==> m.status == t.status)
      && (p.status.Some? ==> m.status == p.status.value)
      && (p.remarks.None? ==> m.remarks == t.remarks)
      && (p.remarks.Some? ==> m.remarks == p.remarks.value)
      && (p.completedAt.None? ==> m.completedAt == t.completedAt)
      && (p.completedAt.Some? ==> m.completedAt == p.completedAt.value)
      && (p.labAssistantId.None? ==> m.labAssistantId == t.labAssistantId)
      && (p.labAssistantId.Some? ==> m.labAssistantId == p.labAssistantId.value)
      && (p.reportUrl.None? ==> m.reportUrl == t.reportUrl)
      && (p.reportUrl.Some? ==> m.reportUrl == p.reportUrl.value)
  {
  }

  /** Merging the empty patch changes nothing, and merging the same patch
      twice is the same as merging it once. */
  lemma MergeAppointmentIdempotent(a: Appointment, p: AppointmentPatch)
    ensures MergeAppointment(a, AppointmentPatch(None, None)) == a
    ensures MergeAppointment(MergeAppointment(a, p), p) == MergeAppointment(a, p)
  {
  }
}

=== FILE: server.dfy ===
/** The server as a whole: every write endpoint as one request type, a run of
    requests over the store, and the properties that hold across any run. */
module Server {
  import opened JsValues
  import opened JsMaps
  import opened Schema
  import opened Storage
  import opened StoreInvariants
  import opened Routes
  import opened SampleData
  import opened TokenQueue

  /** A write request with its session and already-parsed body fields. */
  datatype Request =
    | BookAppointment(session: Session, appointment: InsertAppointment)
    | EditAppointment(session: Session, id: int, status: Field<AppointmentStatus>, tokenNumber: Field<int>)
    | AddDoctor(session: Session, doctor: InsertDoctor)
    | WritePrescription(session: Session, prescription: InsertPrescription)
    | OrderLabTest(session: Session, labTest: InsertLabTest)
    | EditLabTest(session: Session, id: int, labStatus: Field<LabStatus>, remarks: Field<string>)
    | UploadReport(session: Session, id: int, file: Option<UploadedFile>)
    | IssueToken(session: Session, appointmentId: int)

  /** The moment a request is handled and the start of its local day. */
  datatype Clock = Clock(now: Time, dayStart: Time)

  /** The store a write request leaves behind, whatever it answers. A request
      takes at most one id and never removes a record. */
  function Handle(s: Store, req: Request, clock: Clock): (r: Store)
    ensures s.currentId <= r.currentId <= s.currentId + 1
    ensures KeepsRecords(s, r)
  {
    match req
    case BookAppointment(session, a) => PostAppointments(s, session, a, clock.now).store
    case EditAppointment(session, id, status, tokenNumber) => PatchAppointment(s, session, id, status, tokenNumber).store
    case AddDoctor(session, d) => PostDoctors(s, session, d).store
    case WritePrescription(session, p) => PostPrescriptions(s, session, p, clock.now).store
    case OrderLabTest(session, t) => PostLabTests(s, session, t, clock.now).store
    case EditLabTest(session, id, status, remarks) => PatchLabTest(s, session, id, status, remarks, clock.now).store
    case UploadReport(session, id, file) => PostLabTestUpload(s, session, id, file, clock.now).store
    case IssueToken(session, appointmentId) => PostTokenAssign(s, session, appointmentId, clock.now, clock.dayStart).store
  }

  /** The store after a sequence of requests, handled in order. Over any run
      the counter only grows, by at most one per request, and every record
      stored at the start is still stored at the end. */
  function Run(s: Store, trace: seq<(Request, Clock)>): (r: Store)
    ensures s.currentId <= r.currentId <= s.currentId + |trace|
    ensures KeepsRecords(s, r)
    decreases |trace|
  {
    if |trace| == 0 then s
    else
      var n := |trace| - 1;
      Handle(Run(s, trace[..n]), trace[n].0, trace[n].1)
  }

  /** Extending a run by one request handles that request last. */
  lemma RunSnoc(s: Store, trace: seq<(Request, Clock)>, i: int)
    requires 0 <= i < |trace|
    ensures Run(s, trace[..i + 1]) == Handle(Run(s, trace[..i]), trace[i].0, trace[i].1)
  {
    assert trace[..i + 1][..i] == trace[..i];
  }

  /** The counter seen by later requests is never below that seen by earlier
      ones, so ids are handed out in request order. */
  lemma {:induction false} RunCounterMonotone(s: Store, trace: seq<(Request, Clock)>, i: int, j: int)
    requires 0 <= i <= j <= |trace|
    ensures Run(s, trace[..i]).currentId <= Run(s, trace[..j]).currentId
    decreases j - i
  {
    if i < j {
      RunCounterMonotone(s, trace, i, j - 1);
      RunSnoc(s, trace, j - 1);
    }
  }

  // ---- A route-level invariant: completed lab tests are stamped ----

  /** A completed lab test records when it was completed and by whom. */
  predicate Stamped(t: LabTest) {
    t.status == Present(LabStatus.Completed) ==> t.completedAt.Present? && t.labAssistantId.Present?
  }

  ghost predicate CompletionStamped(s: Store) {
    forall k :: k in s.labTests.entries ==> Stamped(s.labTests.entries[k])
  }

  lemma StampedAfterSet(m: JsMap<LabTest>, k: int, t: LabTest)
    requires forall k' :: k' in m.entries ==> Stamped(m.entries[k'])
    requires Stamped(t)
    ensures var m' := Set(m, k, t); forall k' :: k' in m'.entries ==> Stamped(m'.entries[k'])
  {
    var m' := Set(m, k, t);
    forall k' | k' in m'.entries
      ensures Stamped(m'.entries[k'])
    {
      if k' != k {
        assert Get(m', k') == Get(m, k');
      } else {
        assert Get(m', k) == Some(t);
      }
    }
  }

  lemma OrderLabTestKeepsInvariants(s: Store, session: Session, t: InsertLabTest, now: Time)
    requires Inv(s) && CompletionStamped(s)
    ensures var r := PostLabTests(s, session, t, now).store; Inv(r) && CompletionStamped(r)
  {
    if HasRole(session, Doctor) {
      var body := t.(doctorId := session.value.id);
      var (test, s') := CreateLabTest(s, body, now);
      CreateLabTestInv(s, body, now);
      assert s'.labTests == Set(s.labTests, s.currentId, test);
      StampedAfterSet(s.labTests, s.currentId, test);
    }
  }

  lemma EditLabTestKeepsInvariants(s: Store, session: Session, id: int, status: Field<LabStatus>,
                                   remarks: Field<string>, now: Time)
    requires Inv(s) && CompletionStamped(s)
    ensures var r := PatchLabTest(s, session, id, status, remarks, now).store; Inv(r) && CompletionStamped(r)
  {
    if HasRole(session, Lab) {
      var p := LabTestBodyPatch(status, remarks, session.value.id, now);
      UpdateLabTestInv(s, id, p);
      if id in s.labTests.entries {
        var step := UpdateLabTest(s, id, p);
        assert step.store.labTests == Set(s.labTests, id, step.result.value);
        StampedAfterSet(s.labTests, id, step.result.value);
      }
    }
  }

  lemma UploadReportKeepsInvariants(s: Store, session: Session, id: int, file: Option<UploadedFile>, now: Time)
    requires Inv(s) && CompletionStamped(s)
    ensures var r := PostLabTestUpload(s, session, id, file, now).store; Inv(r) && CompletionStamped(r)
  {
    var r := PostLabTestUpload(s, session, id, file, now);
    if r.body.Ok? {
      var p := UploadPatch(file.value.filename, session.value.id, now);
      UpdateLabTestInv(s, id, p);
      var step := UpdateLabTest(s, id, p);
      assert step.store.labTests == Set(s.labTests, id, step.result.value);
      StampedAfterSet(s.labTests, id, step.result.value);
    }
  }

  lemma BookAppointmentKeepsInvariants(s: Store, session: Session, a: InsertAppointment, now: Time)
    requires Inv(s) && CompletionStamped(s)
    ensures var r := PostAppointments(s, session, a, now).store; Inv(r) && CompletionStamped(r)
  {
    if session.Some? {
      CreateAppointmentInv(s, a.(patientId := session.value.id), now);
    }
  }

  lemma EditAppointmentKeepsInvariants(s: Store, session: Session, id: int, status: Field<AppointmentStatus>,
                                       tokenNumber: Field<int>)
    requires Inv(s) && CompletionStamped(s)
    ensures var r := PatchAppointment(s, session, id, status, tokenNumber).store; Inv(r) && CompletionStamped(r)
  {
    UpdateAppointmentInv(s, id, AppointmentBodyPatch(status, tokenNumber));
  }

  lemma AddDoctorKeepsInvariants(s: Store, session: Session, d: InsertDoctor)
    requires Inv(s) && CompletionStamped(s)
    ensures var r := PostDoctors(s, session, d).store; Inv(r) && CompletionStamped(r)
  {
    CreateDoctorInv(s, d);
  }

  lemma WritePrescriptionKeepsInvariants(s: Store, session: Session, p: InsertPrescription, now: Time)
    requires Inv(s) && CompletionStamped(s)
    ensures var r := PostPrescriptions(s, session, p, now).store; Inv(r) && CompletionStamped(r)
  {
    if HasRole(session, Doctor) {
      CreatePrescriptionInv(s, p.(doctorId := session.value.id), now);
    }
  }

  lemma IssueTokenKeepsInvariants(s: Store, session: Session, appointmentId: int, clock: Clock)
    requires Inv(s) && CompletionStamped(s)
    ensures var r := PostTokenAssign(s, session, appointmentId, clock.now, clock.dayStart).store;
      Inv(r) && CompletionStamped(r)
  {
    if HasRole(session, Admin) {
      AssignTokenInv(s, appointmentId, clock.now, clock.dayStart);
    }
  }

  /** Every write request keeps the store invariant and keeps completed lab
      tests stamped: the lab PATCH stamps the time exactly when it sets
      "completed", and always sets the assistant; the upload sets both. */
  lemma HandleKeepsInvariants(s: Store, req: Request, clock: Clock)
    requires Inv(s) && CompletionStamped(s)
    ensures Inv(Handle(s, req, clock)) && CompletionStamped(Handle(s, req, clock))
  {
    match req
    case BookAppointment(session, a) => BookAppointmentKeepsInvariants(s, session, a, clock.now);
    case EditAppointment(session, id, status, tokenNumber) =>
      EditAppointmentKeepsInvariants(s, session, id, status, tokenNumber);
    case AddDoctor(session, d) => AddDoctorKeepsInvariants(s, session, d);
    case WritePrescription(session, p) => WritePrescriptionKeepsInvariants(s, session, p, clock.now);
    case OrderLabTest(session, t) => OrderLabTestKeepsInvariants(s, session, t, clock.now);
    case EditLabTest(session, id, status, remarks) =>
      EditLabTestKeepsInvariants(s, session, id, status, remarks, clock.now);
    case UploadReport(session, id, file) => UploadReportKeepsInvariants(s, session, id, file, clock.now);
    case IssueToken(session, appointmentId) => IssueTokenKeepsInvariants(s, session, appointmentId, clock);
  }

  /** Any run of requests from a store meeting both invariants ends in one
      meeting both. */
  lemma {:induction false} RunKeepsInvariants(s: Store, trace: seq<(Request, Clock)>)
    requires Inv(s) && CompletionStamped(s)
    ensures Inv(Run(s, trace)) && CompletionStamped(Run(s, trace))
    decreases |trace|
  {
    if |trace| > 0 {
      var n := |trace| - 1;
      RunKeepsInvariants(s, trace[..n]);
      HandleKeepsInvariants(Run(s, trace[..n]), trace[n].0, trace[n].1);
    }
  }

  /** Every run from the seeded store ends in a store that meets both
      invariants, so token numbering's precondition holds there too. */
  lemma SeededRunKeepsInvariants(now: Time, trace: seq<(Request, Clock)>)
    ensures var r := Run(InitialStore(now), trace);
      Inv(r) && CompletionStamped(r) && QueueBelowCounter(r)
  {
    InitialStoreInv(now);
    SeedStoresNoActivity(EmptyStore(), SampleUsers, now);
    RunKeepsInvariants(InitialStore(now), trace);
    InvQueueBelowCounter(Run(InitialStore(now), trace));
  }

  // ---- Consequences of the handlers' choices ----

  /** A doctor's own prescription never appears in that doctor's listing:
      the POST stores the caller's user id as `doctorId`, while the listing
      matches `doctorId` against the caller's doctor-record id, and under
      the store invariant the two always differ. */
  lemma DoctorCannotSeeOwnPrescription(s: Store, c: Caller, body: InsertPrescription, now: Time)
    requires Inv(s) && c.role == Doctor && c.id in s.users.entries
    ensures var r := PostPrescriptions(s, Some(c), body, now);
      && r.body.Ok?
      && r.body.value in Values(r.store.prescriptions)
      && r.body.value !in GetPrescriptions(r.store, Some(c)).value
  {
    var r := PostPrescriptions(s, Some(c), body, now);
    var p := r.body.value;
    ValuesAreEntries(r.store.prescriptions, p);
    assert r.store.doctors == s.doctors;
    assert DoctorByUserId(r.store, c.id) == DoctorByUserId(s, c.id);
    match DoctorByUserId(s, c.id)
    case None =>
    case Some(d) =>
      DoctorRecordIdIsNotAUserId(s, d, c.id);
  }

  /** The same holds for a lab test the doctor requests. */
  lemma DoctorCannotSeeOwnLabRequest(s: Store, c: Caller, body: InsertLabTest, now: Time)
    requires Inv(s) && c.role == Doctor && c.id in s.users.entries
    ensures var r := PostLabTests(s, Some(c), body, now);
      && r.body.Ok?
      && r.body.value in Values(r.store.labTests)
      && r.body.value !in GetLabTests(r.store, Some(c)).value
  {
    var r := PostLabTests(s, Some(c), body, now);
    var t := r.body.value;
    ValuesAreEntries(r.store.labTests, t);
    assert r.store.doctors == s.doctors;
    assert DoctorByUserId(r.store, c.id) == DoctorByUserId(s, c.id);
    match DoctorByUserId(s, c.id)
    case None =>
    case Some(d) =>
      DoctorRecordIdIsNotAUserId(s, d, c.id);
  }

  /** An appointment edit that leaves out the token number clears it: the
      handler always writes both keys. */
  lemma StatusEditClearsToken(s: Store, c: Caller, id: int, status: Field<AppointmentStatus>)
    requires id in s.appointments.entries
    ensures var r := PatchAppointment(s, Some(c), id, status, Undefined);
      && r.body.Ok?
      && Get(r.store.appointments, id).value.tokenNumber == Undefined
      && Get(r.store.appointments, id).value.status == status
  {
  }

  /** A lab PATCH after an upload that does not say "completed" drops the
      completion time but keeps the report location. */
  lemma LabEditAfterUploadDropsCompletionTime(s: Store, c: Caller, id: int, file: UploadedFile,
                                               status: Field<LabStatus>, remarks: Field<string>,
                                               t1: Time, t2: Time)
    requires c.role == Lab && id in s.labTests.entries && AcceptsType(file.mimetype)
    requires status != Present(LabStatus.Completed)
    ensures var up := PostLabTestUpload(s, Some(c), id, Some(file), t1);
      var edit := PatchLabTest(up.store, Some(c), id, status, remarks, t2);
      && up.body.Ok? && edit.body.Ok?
      && edit.body.value.reportUrl == Present("/uploads/" + file.filename)
      && edit.body.value.completedAt == Undefined
      && edit.body.value.status == status
  {
    var up := PostLabTestUpload(s, Some(c), id, Some(file), t1);
    assert id in up.store.labTests.entries;
    assert up.store.labTests.entries[id] == up.body.value;
  }

  /** An admin's token request for a missing appointment fails, yet the token
      is stored and its id is spent. */
  lemma OrphanTokenOnMissingAppointment(s: Store, c: Caller, appointmentId: int, clock: Clock)
    requires c.role == Admin && appointmentId !in s.appointments.entries
    ensures var r := PostTokenAssign(s, Some(c), appointmentId, clock.now, clock.dayStart);
      && r.body == Err(Failed)
      && r.store.currentId == s.currentId + 1
      && s.currentId in r.store.tokenQueue.entries
      && r.store.tokenQueue.entries[s.currentId].appointmentId == appointmentId
      && r.store.appointments == s.appointments
  {
  }

  /** Lab assistants can neither write nor read prescriptions. */
  lemma LabSeesNoPrescriptions(s: Store, c: Caller, body: InsertPrescription, now: Time)
    requires c.role == Lab
    ensures GetPrescriptions(s, Some(c)) == Ok([])
    ensures PostPrescriptions(s, Some(c), body, now) == Response(Err(Forbidden), s)
  {
  }
}

=== FILE: storage.dfy ===
/** The in-memory record store: six insertion-ordered maps and one id counter
    shared by every kind of record. Each operation is a pure function of the
    store; writes return the new store beside their result. */
module Storage {
  import opened JsValues
  import opened JsArrays
  import opened JsMaps
  import opened Schema
  import opened Access

  /** Length of the "today" window, from one local midnight to the next. */
  const DayMillis: int := 86_400_000

  /** Whether t falls in the half-open day window that starts at dayStart. */
  predicate InDay(t: Time, dayStart: Time) {
    dayStart <= t < dayStart + DayMillis
  }

  datatype Store = Store(
    users: JsMap<User>,
    doctors: JsMap<DoctorRecord>,
    appointments: JsMap<Appointment>,
    prescriptions: JsMap<Prescription>,
    labTests: JsMap<LabTest>,
    tokenQueue: JsMap<TokenEntry>,
    currentId: int)

  /** The two failures the store raises: an update on an id it does not hold. */
  datatype StoreError = AppointmentNotFound | LabTestNotFound

  /** The result of a write together with the store it leaves behind. */
  datatype Step<T> = Step(result: Result<T, StoreError>, store: Store)

  /** A store with no records whose counter starts at 1. */
  function EmptyStore(): (s: Store)
    ensures s.currentId == 1
    ensures Size(s.users) == 0 && Size(s.doctors) == 0 && Size(s.appointments) == 0
    ensures Size(s.prescriptions) == 0 && Size(s.labTests) == 0 && Size(s.tokenQueue) == 0
  {
    Store(Empty(), Empty(), Empty(), Empty(), Empty(), Empty(), 1)
  }

  // ---- Users ----

  /** `getUser(id)`. */
  function GetUser(s: Store, id: int): (r: Option<User>)
    ensures r.Some? <==> id in s.users.entries
    ensures r.Some? ==> r.value == s.users.entries[id] && r.value in Values(s.users)
  {
    if id in s.users.entries then
      ValuesAreEntries(s.users, s.users.entries[id]);
      Get(s.users, id)
    else Get(s.users, id)
  }

  /** `getUserByUsername(name)`: the earliest-created user with that name.
      Nothing makes usernames unique, so later namesakes are shadowed. */
  function UserByUsername(s: Store, name: string): (r: Option<User>)
    ensures r.Some? ==> r.value in Values(s.users) && r.value.username == name
    ensures r.Some? ==> exists i ::
      && 0 <= i < |Values(s.users)| && Values(s.users)[i] == r.value
      && (forall j :: 0 <= j < i ==> Values(s.users)[j].username != name)
    ensures r.None? <==> forall u :: u in Values(s.users) ==> u.username != name
  {
    Find(Values(s.users), (u: User) => u.username == name)
  }

  /** `createUser(payload)`: the payload's columns under the next id. */
  function CreateUser(s: Store, u: InsertUser, now: Time): (r: (User, Store))
    ensures r.0.id == s.currentId && r.1.currentId == s.currentId + 1
    ensures UserColumns(r.0) == u && r.0.createdAt == now
    ensures r.1.users == Set(s.users, s.currentId, r.0)
    ensures r.1 == s.(users := r.1.users, currentId := s.currentId + 1)
  {
    var id := s.currentId;
    var user := User(id, u.username, u.password, u.email, u.role, u.firstName, u.lastName, u.phone, now);
    (user, s.(users := Set(s.users, id, user), currentId := id + 1))
  }

  /** A new user is found under its id, and every other id finds what it
      found before. */
  lemma GetUserAfterCreate(s: Store, u: InsertUser, now: Time, id: int)
    ensures var (user, s') := CreateUser(s, u, now);
      GetUser(s', id) == if id == s.currentId then Some(user) else GetUser(s, id)
  {
  }

  /** A new namesake never shadows an existing user: lookup by name returns
      the earlier user if there is one, and the new user only otherwise. */
  lemma UserByUsernameAfterCreate(s: Store, u: InsertUser, now: Time, name: string)
    requires s.currentId !in s.users.entries
    ensures var (user, s') := CreateUser(s, u, now);
      UserByUsername(s', name)
        == if UserByUsername(s, name).Some? then UserByUsername(s, name)
           else if u.username == name then Some(user) else None
  {
    var (user, s') := CreateUser(s, u, now);
    ValuesSetFresh(s.users, s.currentId, user);
    FindSnoc(Values(s.users), user, (v: User) => v.username == name);
  }

  // ---- Doctors ----

  /** `getAllDoctors()`: the active doctor records. */
  function AllDoctors(s: Store): (r: seq<DoctorRecord>)
    ensures forall d :: d in r <==> d in Values(s.doctors) && d.isActive
    ensures |r| <= Size(s.doctors)
  {
    Filter(Values(s.doctors), (d: DoctorRecord) => d.isActive)
  }

  /** `getDoctorByUserId(userId)`: the earliest doctor record owned by userId. */
  function DoctorByUserId(s: Store, userId: int): (r: Option<DoctorRecord>)
    ensures r.Some? ==> r.value in Values(s.doctors) && r.value.userId == userId
    ensures r.Some? ==> exists i ::
      && 0 <= i < |Values(s.doctors)| && Values(s.doctors)[i] == r.value
      && (forall j :: 0 <= j < i ==> Values(s.doctors)[j].userId != userId)
    ensures r.None? <==> forall d :: d in Values(s.doctors) ==> d.userId != userId
  {
    Find(Values(s.doctors), (d: DoctorRecord) => d.userId == userId)
  }

  /** The record id of the caller's doctor profile, which the doctor-role
      filters compare against. */
  function DoctorRecordId(s: Store, userId: int): Option<int> {
    match DoctorByUserId(s, userId)
    case Some(d) => Some(d.id)
    case None => None
  }

  /** The access matrix as a filter over appointments for one caller. */
  function SeesAppointment(s: Store, userId: int, role: Role): Appointment -> bool {
    (a: Appointment) => MaySee(ScopeOf(Appointments, role), userId, DoctorRecordId(s, userId), a.patientId, a.doctorId)
  }

  /** The access matrix as a filter over prescriptions for one caller. */
  function SeesPrescription(s: Store, userId: int, role: Role): Prescription -> bool {
    (p: Prescription) => MaySee(ScopeOf(Prescriptions, role), userId, DoctorRecordId(s, userId), p.patientId, p.doctorId)
  }

  /** The access matrix as a filter over lab tests for one caller. */
  function SeesLabTest(s: Store, userId: int, role: Role): LabTest -> bool {
    (t: LabTest) => MaySee(ScopeOf(LabTests, role), userId, DoctorRecordId(s, userId), t.patientId, t.doctorId)
  }

  /** `createDoctor(payload)`: the payload's columns under the next id, active. */
  function CreateDoctor(s: Store, d: InsertDoctor): (r: (DoctorRecord, Store))
    ensures r.0.id == s.currentId && r.1.currentId == s.currentId + 1
    ensures DoctorColumns(r.0) == d && r.0.isActive
    ensures r.1.doctors == Set(s.doctors, s.currentId, r.0)
    ensures r.1 == s.(doctors := r.1.doctors, currentId := s.currentId + 1)
  {
    var id := s.currentId;
    var doctor := DoctorRecord(id, d.userId, d.specialty, d.department, d.licenseNumber, d.experience, true);
    (doctor, s.(doctors := Set(s.doctors, id, doctor), currentId := id + 1))
  }

  // ---- Appointments ----

  /** `getAppointmentsByUser(userId, role)`: exactly the stored appointments
      the access matrix lets the caller see, in creation order. */
  function AppointmentsFor(s: Store, userId: int, role: Role): (r: seq<Appointment>)
    ensures forall a :: a in r <==>
      a in Values(s.appointments)
      && MaySee(ScopeOf(Appointments, role), userId, DoctorRecordId(s, userId), a.patientId, a.doctorId)
    ensures r == Filter(Values(s.appointments), SeesAppointment(s, userId, role))
    ensures role == Admin || role == Lab ==> r == Values(s.appointments)
    ensures role == Role.Other ==> r == []
  {
    var all := Values(s.appointments);
    var sees := SeesAppointment(s, userId, role);
    match role
    case Patient =>
      FilterExt(all, (a: Appointment) => a.patientId == userId, sees);
      Filter(all, (a: Appointment) => a.patientId == userId)
    case Doctor =>
      (match DoctorByUserId(s, userId)
       case Some(d) =>
         FilterExt(all, (a: Appointment) => a.doctorId == d.id, sees);
         Filter(all, (a: Appointment) => a.doctorId == d.id)
       case None => FilterKeepsNone(all, sees); [])
    case Admin => FilterKeepsAll(all, sees); all
    case Lab => FilterKeepsAll(all, sees); all
    case Other => FilterKeepsNone(all, sees); []
  }

  /** `createAppointment(payload)`: scheduled, with no token yet. */
  function CreateAppointment(s: Store, a: InsertAppointment, now: Time): (r: (Appointment, Store))
    ensures r.0.id == s.currentId && r.1.currentId == s.currentId + 1
    ensures AppointmentColumns(r.0) == a && r.0.createdAt == now
    ensures r.0.status == Present(Scheduled) && r.0.tokenNumber == Null
    ensures r.1.appointments == Set(s.appointments, s.currentId, r.0)
    ensures r.1 == s.(appointments := r.1.appointments, currentId := s.currentId + 1)
  {
    var id := s.currentId;
    var appointment := Appointment(id, a.patientId, a.doctorId, a.appointmentDate, Present(Scheduled), a.reason, Null, now);
    (appointment, s.(appointments := Set(s.appointments, id, appointment), currentId := id + 1))
  }

  /** `updateAppointment(id, patch)`: fails and changes nothing when id is
      absent; otherwise stores the shallow merge in place and changes nothing
      else. */
  function UpdateAppointment(s: Store, id: int, p: AppointmentPatch): (r: Step<Appointment>)
    ensures id !in s.appointments.entries ==> r == Step(Err(AppointmentNotFound), s)
    ensures id in s.appointments.entries ==>
      && r.result == Ok(MergeAppointment(s.appointments.entries[id], p))
      && Get(r.store.appointments, id) == Some(r.result.value)
      && r.store.appointments == Set(s.appointments, id, r.result.value)
    ensures forall k :: k != id ==> Get(r.store.appointments, k) == Get(s.appointments, k)
    ensures r.store.appointments.keys == s.appointments.keys
    ensures r.store.appointments.entries.Keys == s.appointments.entries.Keys
    ensures r.store == s.(appointments := r.store.appointments)
  {
    match Get(s.appointments, id)
    case None => Step(Err(AppointmentNotFound), s)
    case Some(a) =>
      var updated := MergeAppointment(a, p);
      Step(Ok(updated), s.(appointments := Set(s.appointments, id, updated)))
  }

  // ---- Prescriptions ----

  /** `getPrescriptionsByUser(userId, role)`: as for appointments, except
      that lab assistants fall into the default branch and see none. */
  function PrescriptionsFor(s: Store, userId: int, role: Role): (r: seq<Prescription>)
    ensures forall p :: p in r <==>
      p in Values(s.prescriptions)
      && MaySee(ScopeOf(Prescriptions, role), userId, DoctorRecordId(s, userId), p.patientId, p.doctorId)
    ensures r == Filter(Values(s.prescriptions), SeesPrescription(s, userId, role))
    ensures role == Admin ==> r == Values(s.prescriptions)
    ensures role == Lab || role == Role.Other ==> r == []
  {
    var all := Values(s.prescriptions);
    var sees := SeesPrescription(s, userId, role);
    match role
    case Patient =>
      FilterExt(all, (p: Prescription) => p.patientId == userId, sees);
      Filter(all, (p: Prescription) => p.patientId == userId)
    case Doctor =>
      (match DoctorByUserId(s, userId)
       case Some(d) =>
         FilterExt(all, (p: Prescription) => p.doctorId == d.id, sees);
         Filter(all, (p: Prescription) => p.doctorId == d.id)
       case None => FilterKeepsNone(all, sees); [])
    case Admin => FilterKeepsAll(all, sees); all
    case _ => FilterKeepsNone(all, sees); []
  }

  /** `createPrescription(payload)`. */
  function CreatePrescription(s: Store, p: InsertPrescription, now: Time): (r: (Prescription, Store))
    ensures r.0.id == s.currentId && r.1.currentId == s.currentId + 1
    ensures PrescriptionColumns(r.0) == p && r.0.createdAt == now
    ensures r.1.prescriptions == Set(s.prescriptions, s.currentId, r.0)
    ensures r.1 == s.(prescriptions := r.1.prescriptions, currentId := s.currentId + 1)
  {
    var id := s.currentId;
    var prescription := Prescription(id, p.appointmentId, p.doctorId, p.patientId, p.diagnosis, p.medications, p.instructions, now);
    (prescription, s.(prescriptions := Set(s.prescriptions, id, prescription), currentId := id + 1))
  }

  // ---- Lab tests ----

  /** `getLabTestsByUser(userId, role)`: lab assistants and admins see all. */
  function LabTestsFor(s: Store, userId: int, role: Role): (r: seq<LabTest>)
    ensures forall t :: t in r <==>
      t in Values(s.labTests)
      && MaySee(ScopeOf(LabTests, role), userId, DoctorRecordId(s, userId), t.patientId, t.doctorId)
    ensures r == Filter(Values(s.labTests), SeesLabTest(s, userId, role))
    ensures role == Admin || role == Lab ==> r == Values(s.labTests)
    ensures role == Role.Other ==> r == []
  {
    var all := Values(s.labTests);
    var sees := SeesLabTest(s, userId, role);
    match role
    case Patient =>
      FilterExt(all, (t: LabTest) => t.patientId == userId, sees);
      Filter(all, (t: LabTest) => t.patientId == userId)
    case Doctor =>
      (match DoctorByUserId(s, userId)
       case Some(d) =>
         FilterExt(all, (t: LabTest) => t.doctorId == d.id, sees);
         Filter(all, (t: LabTest) => t.doctorId == d.id)
       case None => FilterKeepsNone(all, sees); [])
    case Lab => FilterKeepsAll(all, sees); all
    case Admin => FilterKeepsAll(all, sees); all
    case Other => FilterKeepsNone(all, sees); []
  }

  /** `createLabTest(payload)`: requested now, with every completion field null. */
  function CreateLabTest(s: Store, t: InsertLabTest, now: Time): (r: (LabTest, Store))
    ensures r.0.id == s.currentId && r.1.currentId == s.currentId + 1
    ensures LabTestColumns(r.0) == t && r.0.requestedAt == now
    ensures r.0.status == Present(Requested)
    ensures r.0.completedAt == Null && r.0.labAssistantId == Null && r.0.reportUrl == Null && r.0.remarks == Null
    ensures r.1.labTests == Set(s.labTests, s.currentId, r.0)
    ensures r.1 == s.(labTests := r.1.labTests, currentId := s.currentId + 1)
  {
    var id := s.currentId;
    var test := LabTest(id, t.appointmentId, t.doctorId, t.patientId, t.testType, t.priority,
                        Present(Requested), now, Null, Null, Null, Null);
    (test, s.(labTests := Set(s.labTests, id, test), currentId := id + 1))
  }

  /** `updateLabTest(id, patch)`: fails and changes nothing when id is
      absent; otherwise stores the shallow merge in place and changes nothing
      else. */
  function UpdateLabTest(s: Store, id: int, p: LabTestPatch): (r: Step<LabTest>)
    ensures id !in s.labTests.entries ==> r == Step(Err(LabTestNotFound), s)
    ensures id in s.labTests.entries ==>
      && r.result == Ok(MergeLabTest(s.labTests.entries[id], p))
      && Get(r.store.labTests, id) == Some(r.result.value)
      && r.store.labTests == Set(s.labTests, id, r.result.value)
    ensures forall k :: k != id ==> Get(r.store.labTests, k) == Get(s.labTests, k)
    ensures r.store.labTests.keys == s.labTests.keys
    ensures r.store.labTests.entries.Keys == s.labTests.entries.Keys
    ensures r.store == s.(labTests := r.store.labTests)
  {
    match Get(s.labTests, id)
    case None => Step(Err(LabTestNotFound), s)
    case Some(t) =>
      var updated := MergeLabTest(t, p);
      Step(Ok(updated), s.(labTests := Set(s.labTests, id, updated)))
  }

  // ---- Token queue ----

  /** `getTodayTokenQueue()`: the tokens queued inside today's window. */
  function TodayTokenQueue(s: Store, dayStart: Time): (r: seq<TokenEntry>)
    ensures forall t :: t in r <==> t in Values(s.tokenQueue) && InDay(t.queueDate, dayStart)
    ensures |r| <= Size(s.tokenQueue)
  {
    Filter(Values(s.tokenQueue), (t: TokenEntry) => InDay(t.queueDate, dayStart))
  }

  /** `assignToken(appointmentId)`. Takes the next id, numbers the token one
      past today's count, stores it, and only then confirms the appointment.
      When the appointment is missing the call fails, but the token entry and
      its id stay behind. */
  function AssignToken(s: Store, appointmentId: int, now: Time, dayStart: Time): (r: Step<TokenEntry>)
    ensures r.store.currentId == s.currentId + 1
    ensures s.currentId in r.store.tokenQueue.entries
    ensures var t := r.store.tokenQueue.entries[s.currentId];
      && t.id == s.currentId && t.appointmentId == appointmentId && t.queueDate == now
      && t.tokenNumber == |TodayTokenQueue(s, dayStart)| + 1
      && t.estimatedTime == 15 * t.tokenNumber && t.status == Waiting
    ensures r.store.tokenQueue == Set(s.tokenQueue, s.currentId, r.store.tokenQueue.entries[s.currentId])
    ensures r.result.Ok? <==> appointmentId in s.appointments.entries
    ensures r.result.Ok? ==> r.result.value == r.store.tokenQueue.entries[s.currentId]
    ensures r.result.Ok? ==>
      Get(r.store.appointments, appointmentId)
        == Some(s.appointments.entries[appointmentId].(status := Present(Confirmed),
                                                        tokenNumber := Present(r.result.value.tokenNumber)))
    ensures r.result.Ok? ==>
      r.store.appointments == Set(s.appointments, appointmentId, r.store.appointments.entries[appointmentId])
    ensures r.result.Err? ==> r.result.error == AppointmentNotFound && r.store.appointments == s.appointments
    ensures forall k :: k != appointmentId ==> Get(r.store.appointments, k) == Get(s.appointments, k)
    ensures r.store == s.(tokenQueue := r.store.tokenQueue, appointments := r.store.appointments,
                          currentId := s.currentId + 1)
  {
    var id := s.currentId;
    var s1 := s.(currentId := id + 1);
    var next := |TodayTokenQueue(s1, dayStart)| + 1;
    var token := TokenEntry(id, appointmentId, next, now, Waiting, next * 15);
    var s2 := s1.(tokenQueue := Set(s1.tokenQueue, id, token));
    var confirm := AppointmentPatch(Some(Present(Confirmed)), Some(Present(next)));
    var step := UpdateAppointment(s2, appointmentId, confirm);
    match step.result
    case Err(e) => Step(Err(e), s2)
    case Ok(_) => Step(Ok(token), step.store)
  }

  // ---- Dashboard ----

  /** Per-role dashboard counters; `NoStats` is the empty object. */
  datatype Stats =
    | PatientStats(upcomingAppointments: nat, pendingReports: nat, prescriptions: nat)
    | DoctorStats(todayAppointments: nat, pendingLabs: nat, completed: nat)
    | AdminStats(totalDoctors: nat, todayAppointments: nat, revenue: int, pendingApprovals: nat)
    | LabStats(pendingTests: nat, completedToday: nat, weeklyTotal: nat, averageTat: string)
    | NoStats

  /** Appointments dated inside today's window. */
  function TodayAppointments(s: Store, dayStart: Time): (r: seq<Appointment>)
    ensures forall a :: a in r <==> a in Values(s.appointments) && InDay(a.appointmentDate, dayStart)
  {
    Filter(Values(s.appointments), (a: Appointment) => InDay(a.appointmentDate, dayStart))
  }

  /** Lab tests requested inside today's window. */
  function TodayLabTests(s: Store, dayStart: Time): (r: seq<LabTest>)
    ensures forall t :: t in r <==> t in Values(s.labTests) && InDay(t.requestedAt, dayStart)
  {
    Filter(Values(s.labTests), (t: LabTest) => InDay(t.requestedAt, dayStart))
  }

  predicate AppointmentHasStatus(a: Appointment, st: AppointmentStatus) {
    a.status == Present(st)
  }

  predicate LabTestHasStatus(t: LabTest, st: LabStatus) {
    t.status == Present(st)
  }

  /** `getDashboardStats(role)`. The counters read the store and the day
      window only; revenue is a flat 50 per appointment today, and a status
      count never exceeds the count it narrows. */
  function DashboardStats(s: Store, role: Role, dayStart: Time): (r: Stats)
    ensures r.NoStats? <==> role == Role.Other
    ensures r.PatientStats? <==> role == Patient
    ensures r.DoctorStats? <==> role == Doctor
    ensures r.AdminStats? <==> role == Admin
    ensures r.LabStats? <==> role == Lab
    ensures r.PatientStats? ==>
      && r.upcomingAppointments == |TodayAppointments(s, dayStart)|
      && r.pendingReports <= |TodayLabTests(s, dayStart)|
      && r.prescriptions == Size(s.prescriptions)
    ensures r.DoctorStats? ==>
      && r.todayAppointments == |TodayAppointments(s, dayStart)|
      && r.completed <= r.todayAppointments
      && r.pendingLabs <= |TodayLabTests(s, dayStart)|
    ensures r.AdminStats? ==>
      && r.totalDoctors == Size(s.doctors)
      && r.todayAppointments == |TodayAppointments(s, dayStart)|
      && r.revenue == 50 * r.todayAppointments
      && r.pendingApprovals <= r.todayAppointments
    ensures r.LabStats? ==>
      && r.pendingTests + r.completedToday <= |TodayLabTests(s, dayStart)|
      && r.weeklyTotal == Size(s.labTests)
      && r.averageTat == "2.4h"
  {
    var todayAppointments := TodayAppointments(s, dayStart);
    var todayLabTests := TodayLabTests(s, dayStart);
    match role
    case Patient =>
      PatientStats(
        |todayAppointments|,
        |Filter(todayLabTests, (t: LabTest) => LabTestHasStatus(t, LabStatus.Completed) && TruthyText(t.reportUrl))|,
        Size(s.prescriptions))
    case Doctor =>
      DoctorStats(
        |todayAppointments|,
        |Filter(todayLabTests, (t: LabTest) => LabTestHasStatus(t, Requested))|,
        |Filter(todayAppointments, (a: Appointment) => AppointmentHasStatus(a, AppointmentStatus.Completed))|)
    case Admin =>
      AdminStats(
        Size(s.doctors),
        |todayAppointments|,
        |todayAppointments| * 50,
        |Filter(todayAppointments, (a: Appointment) => AppointmentHasStatus(a, Scheduled))|)
    case Lab =>
      var requested := Filter(todayLabTests, (t: LabTest) => LabTestHasStatus(t, Requested));
      var completed := Filter(todayLabTests, (t: LabTest) => LabTestHasStatus(t, LabStatus.Completed));
      FilterDisjointCount(todayLabTests,
                          (t: LabTest) => LabTestHasStatus(t, Requested),
                          (t: LabTest) => LabTestHasStatus(t, LabStatus.Completed));
      LabStats(|requested|, |completed|, Size(s.labTests), "2.4h")
    case Other => NoStats
  }
}

=== FILE: token_queue.dfy ===
/** Properties of token assignment over several calls: within one day the
    tokens are numbered 1, 2, 3, ... in call order, and a day's count is
    untouched by tokens assigned on another day. */
module TokenQueue {
  import opened JsValues
  import opened JsArrays
  import opened JsMaps
  import opened Schema
  import opened Storage
  import opened StoreInvariants

  /** The token entry an `AssignToken` call from s stored. */
  function IssuedToken(s: Store, appointmentId: int, now: Time, dayStart: Time): TokenEntry {
    AssignToken(s, appointmentId, now, dayStart).store.tokenQueue.entries[s.currentId]
  }

  /** Every token key lies below the counter: the one fact about the store
      that token numbering relies on. The store invariant implies it. */
  ghost predicate QueueBelowCounter(s: Store) {
    forall k :: k in s.tokenQueue.entries ==> k < s.currentId
  }

  lemma InvQueueBelowCounter(s: Store)
    requires Inv(s)
    ensures QueueBelowCounter(s)
  {
  }

  /** A token assigned inside a day's window is appended to that day's queue,
      whether or not its appointment exists. */
  lemma AssignTokenAppendsToday(s: Store, appointmentId: int, now: Time, dayStart: Time)
    requires QueueBelowCounter(s) && InDay(now, dayStart)
    ensures TodayTokenQueue(AssignToken(s, appointmentId, now, dayStart).store, dayStart)
         == TodayTokenQueue(s, dayStart) + [IssuedToken(s, appointmentId, now, dayStart)]
  {
    var t := IssuedToken(s, appointmentId, now, dayStart);
    ValuesSetFresh(s.tokenQueue, s.currentId, t);
    FilterSnoc(Values(s.tokenQueue), t, (e: TokenEntry) => InDay(e.queueDate, dayStart));
  }

  /** A token assigned outside a day's window leaves that day's queue as it was. */
  lemma AssignTokenOtherDay(s: Store, appointmentId: int, now: Time, dayStart: Time, otherDay: Time)
    requires QueueBelowCounter(s) && !InDay(now, otherDay)
    ensures TodayTokenQueue(AssignToken(s, appointmentId, now, dayStart).store, otherDay)
         == TodayTokenQueue(s, otherDay)
  {
    var t := IssuedToken(s, appointmentId, now, dayStart);
    ValuesSetFresh(s.tokenQueue, s.currentId, t);
    FilterSnoc(Values(s.tokenQueue), t, (e: TokenEntry) => InDay(e.queueDate, otherDay));
  }

  /** The store after one `assignToken` call. */
  function AfterToken(s: Store, call: (int, Time), dayStart: Time): Store {
    AssignToken(s, call.0, call.1, dayStart).store
  }

  /** Any `assignToken` call keeps the queue below the counter. */
  lemma AssignTokenKeepsQueueBelowCounter(s: Store, appointmentId: int, now: Time, dayStart: Time)
    requires QueueBelowCounter(s)
    ensures QueueBelowCounter(AssignToken(s, appointmentId, now, dayStart).store)
  {
  }

  /** One call inside the day: the day's queue grows by one, and the number
      issued is one past the day's previous count. */
  lemma OneTokenToday(s: Store, call: (int, Time), dayStart: Time)
    requires QueueBelowCounter(s) && InDay(call.1, dayStart)
    ensures |TodayTokenQueue(AfterToken(s, call, dayStart), dayStart)| == |TodayTokenQueue(s, dayStart)| + 1
    ensures IssuedToken(s, call.0, call.1, dayStart).tokenNumber == |TodayTokenQueue(s, dayStart)| + 1
  {
    AssignTokenAppendsToday(s, call.0, call.1, dayStart);
  }

  /** `stores` is the run of `assignToken` calls `calls` (appointment id and
      time of each) from stores[0]: stores[i + 1] is the store the i-th call
      leaves. */
  ghost predicate TokenRun(stores: seq<Store>, calls: seq<(int, Time)>, dayStart: Time) {
    && |stores| == |calls| + 1
    && forall i :: 0 <= i < |calls| ==> RunStep(stores, calls, i, dayStart)
  }

  /** The i-th call of a run turns stores[i] into stores[i + 1]. */
  ghost predicate RunStep(stores: seq<Store>, calls: seq<(int, Time)>, i: nat, dayStart: Time)
    requires i < |calls| && |stores| == |calls| + 1
  {
    stores[i + 1] == AfterToken(stores[i], calls[i], dayStart)
  }

  /** One step of a same-day run: the queue stays below the counter and the
      day's queue grows by one. */
  lemma RunStepToday(stores: seq<Store>, calls: seq<(int, Time)>, i: nat, dayStart: Time)
    requires TokenRun(stores, calls, dayStart) && i < |calls|
    requires QueueBelowCounter(stores[i]) && InDay(calls[i].1, dayStart)
    ensures QueueBelowCounter(stores[i + 1])
    ensures |TodayTokenQueue(stores[i + 1], dayStart)| == |TodayTokenQueue(stores[i], dayStart)| + 1
  {
    assert RunStep(stores, calls, i, dayStart);
    AssignTokenKeepsQueueBelowCounter(stores[i], calls[i].0, calls[i].1, dayStart);
    OneTokenToday(stores[i], calls[i], dayStart);
  }

  /** After n same-day calls the queue is still below the counter and the
      day's queue holds n more tokens. */
  lemma {:induction false} DayCountAfter(stores: seq<Store>, calls: seq<(int, Time)>, n: nat, dayStart: Time)
    requires TokenRun(stores, calls, dayStart) && QueueBelowCounter(stores[0]) && n <= |calls|
    requires forall i :: 0 <= i < |calls| ==> InDay(calls[i].1, dayStart)
    ensures QueueBelowCounter(stores[n])
    ensures |TodayTokenQueue(stores[n], dayStart)| == |TodayTokenQueue(stores[0], dayStart)| + n
    decreases n
  {
    if n > 0 {
      DayCountAfter(stores, calls, n - 1, dayStart);
      RunStepToday(stores, calls, n - 1, dayStart);
    }
  }

  /** N calls on the same day issue the numbers c+1, ..., c+N in call order,
      where c is the day's count before the first call. */
  lemma SameDayTokensAreConsecutive(stores: seq<Store>, calls: seq<(int, Time)>, dayStart: Time)
    requires TokenRun(stores, calls, dayStart) && QueueBelowCounter(stores[0])
    requires forall i :: 0 <= i < |calls| ==> InDay(calls[i].1, dayStart)
    ensures forall i :: 0 <= i < |calls| ==>
      IssuedToken(stores[i], calls[i].0, calls[i].1, dayStart).tokenNumber
        == |TodayTokenQueue(stores[0], dayStart)| + i + 1
  {
    forall i | 0 <= i < |calls|
      ensures IssuedToken(stores[i], calls[i].0, calls[i].1, dayStart).tokenNumber
                == |TodayTokenQueue(stores[0], dayStart)| + i + 1
    {
      DayCountAfter(stores, calls, i, dayStart);
      OneTokenToday(stores[i], calls[i], dayStart);
    }
  }

  /** On a day with no tokens yet, N calls issue exactly 1, ..., N. */
  lemma FirstTokensOfTheDay(stores: seq<Store>, calls: seq<(int, Time)>, dayStart: Time)
    requires TokenRun(stores, calls, dayStart) && QueueBelowCounter(stores[0])
    requires TodayTokenQueue(stores[0], dayStart) == []
    requires forall i :: 0 <= i < |calls| ==> InDay(calls[i].1, dayStart)
    ensures forall i :: 0 <= i < |calls| ==> IssuedToken(stores[i], calls[i].0, calls[i].1, dayStart).tokenNumber == i + 1
  {
    SameDayTokensAreConsecutive(stores, calls, dayStart);
  }
}
